=== FILE: README.md ===
# iDRAC fan controller, modelled in Dafny

Two small Python scripts drive the fans of a Dell PowerEdge through its iDRAC. Both do the same thing:

1. Switch the fans to manual control (`ipmitool raw 0x30 0x30 0x01 0x00`).
2. Every INTERVAL seconds, read the hottest temperature and act on it:
   - at or above CRIT_TEMP, hand control back to the firmware (`0x01 0x01`) and stop;
   - at or above SAFE_TEMP, command 100 %;
   - below SAFE_TEMP, command a clamped linear ramp (`0x02 0xff <byte>`).
3. On Ctrl-C, hand control back to the firmware.

The two scripts differ in a few places:

- `fan_control.py` reads named sensors over SNMP. A failed sensor is skipped, and no valid sensor at all counts as 0 degrees. Its ramp runs between FAN_MIN and FAN_MAX.
- `fancontrol.py` scrapes the text output of `ipmitool sdr`. A failed reading skips the tick. Its ramp is hard-coded to 20/70/90. In `MODE=oneshot` it leaves after the first tick that got a reading.

The model is written as pure functions:

- `Commands`: the three actuator commands and their raw byte encoding.
- `FanCurve`: both curves, with Python's truncation toward zero written out (`Numeric.TruncDiv`).
- `SdrText`: the string functions `get_max_temp` relies on: `strip`, `splitlines`, `split`, `in` and `int`.
- `SdrReader`: `run_ipmi` and `get_max_temp`.
- `ControlLoop`: one loop shared by both scripts. It is a function from the inputs of successive ticks (and whether an interrupt follows them) to the trace of commands sent and the way the run ended.
- `SnmpController` and `IpmiController`: instantiate the loop with each script's tick. `IpmiController.MainLoop` is `main_loop` over the values `get_max_temp` returns on successive ticks; `IpmiController.Main` feeds it `Readings(sdr, LineTemp)`, the script as written, and `IpmiController.MainFixed` feeds it `Readings(sdr, LineTempFixed)`, the corrected reader.

## Model

| member | source | states |
|---|---|---|
| Commands.PercentToByte | fan_control.py:61-62 | `int(p*255/100)` lies in [0, 255] for p in [0, 100], and it is the byte b with b*100 <= p*255 < b*100 + 100 |
| Commands.ByteEndpoints | fancontrol.py:44-46 | 0 % is byte 0 and 100 % is byte 255 |
| Commands.ByteStrictlyMonotone | fan_control.py:61-62 | a higher percentage always gets a strictly higher byte |
| Commands.ByteRoundTrip | fancontrol.py:44-46 | the byte of any percentage in [0, 100] determines that percentage (its inverse is a ceiling division) |
| Commands.RawArgs | fan_control.py:55-63 | every command goes out as netfn 0x30, command 0x30 and then two bytes (manual, auto) or three (speed); for an in-range command every argument is a byte, and a speed's last byte determines its percentage |
| Commands.ParseRaw | fan_control.py:55-63 | any argument list read back as a command is exactly the encoding of that command, and the command is in range |
| Commands.RawRoundTrip | fan_control.py:55-63 | manual, auto and every in-range speed command are recovered from their raw bytes |
| Commands.RawInjective | fancontrol.py:38-47 | distinct commands put distinct bytes on the wire |
| Numeric.TruncDiv | fan_control.py:85-86 | `int(n / d)` is the quotient rounded toward zero: q*d lies between 0 and n, and the remainder is smaller than d in absolute value |
| Numeric.TruncDivMonotone | fan_control.py:85-86 | for a positive divisor, truncating division is non-decreasing in the numerator |
| Numeric.Max | fan_control.py:72 | `max` of a non-empty list is one of its elements and at least every element |
| FanCurve.Decide | fan_control.py:76-88 | the result is critical exactly at or above CRIT_TEMP; it is a division by zero exactly when SAFE_TEMP = 0 and t lies below both CRIT_TEMP and SAFE_TEMP (so t < 0); in the safe band it is 100; below SAFE_TEMP it is at least FAN_MIN, and at most FAN_MAX when FAN_MIN <= FAN_MAX |
| FanCurve.DutyBands | fan_control.py:80-86 | with a valid configuration, every non-critical temperature gets a duty cycle: in [FAN_MIN, FAN_MAX] below SAFE_TEMP, and exactly 100 from SAFE_TEMP up, whatever FAN_MAX is |
| FanCurve.NoDataIsFanMin | fan_control.py:72-86 | the temperature 0 that "no valid sensor" produces gets exactly FAN_MIN |
| FanCurve.RampReference | fan_control.py:85-86 | for 0 <= t < SAFE_TEMP the duty is FAN_MIN + floor(t*(FAN_MAX-FAN_MIN)/SAFE_TEMP), with no clamping needed |
| FanCurve.CurveMonotone | fan_control.py:80-88 | with 0 < SAFE_TEMP and FAN_MIN <= FAN_MAX <= 100 the duty never decreases as the temperature rises, below CRIT_TEMP |
| FanCurve.DecideFixed | fancontrol.py:62-74 | the hard-coded curve, with its own clamp order, equals the configurable one at FAN_MIN = 20, FAN_MAX = 90, so every duty it gives is 100 or lies in [20, 90], for any thresholds |
| FanCurve.FixedMonotone | fancontrol.py:66-74 | with SAFE_TEMP > 0 the hard-coded curve is non-decreasing in the temperature below CRIT_TEMP |
| ControlLoop.Drive | fan_control.py:69-90 | when every tick has the shape both scripts give it, the trace sends only speeds, plus at most one `Auto`; that `Auto` comes last and is sent exactly when the run ended critical or interrupted; a run still going was not interrupted |
| ControlLoop.Run | fan_control.py:65-69 | the trace starts with `Manual`; when every tick has the shape both scripts give it, no later command is `Manual` and the rest of the trace is well formed |
| ControlLoop.DriveAppend | fancontrol.py:53-79 | the loop over a + b is the loop over a followed by the loop over b, as long as no tick of a leaves |
| ControlLoop.DriveStopsAt | fan_control.py:76-79 | the first tick that breaks ends the run; later inputs and the interrupt change nothing |
| ControlLoop.InterruptEndsInAuto | fan_control.py:92-97 | an interrupt during the loop appends one `Auto` after the commands of the completed ticks |
| SnmpController.ValidTemps | fan_control.py:71 | every reading that did not fail is in the list, and the list holds nothing else |
| SnmpController.MaxTemp | fan_control.py:70-72 | the aggregate is at least every valid reading, is one of them if there is any, and is 0 when all sensors fail |
| SnmpController.Tick | fan_control.py:69-88 | a tick sends exactly `[Auto]` and breaks iff the hottest reading is at or above CRIT_TEMP; it crashes iff SAFE_TEMP = 0 with the hottest reading below CRIT_TEMP and below 0; it continues exactly in the remaining case, and then sends the one speed the curve gives the hottest reading |
| SnmpController.Main | fan_control.py:65-97 | one `Manual` first, never again; `Auto` only last, and only for a critical or interrupted run; the run never ends as Finished, since the script has no single-shot exit |
| SnmpController.DriveNeverFinishes | fan_control.py:69-90 | the loop leaves only on a critical temperature, a crash or the interrupt, never by finishing on its own |
| SnmpController.CriticalTick | fan_control.py:76-79 | with SAFE_TEMP > 0, a tick sends exactly `[Auto]` and breaks iff the aggregate is at or above CRIT_TEMP, and continues iff it is below |
| SnmpController.SafeBandTick | fan_control.py:80-82 | between SAFE_TEMP and CRIT_TEMP the tick commands exactly 100 % |
| SnmpController.AllFailedTick | fan_control.py:70-86 | when every sensor fails the tick commands FAN_MIN and the loop keeps running |
| SnmpController.MainSpeedsInRange | fan_control.py:61-88 | with a valid configuration, every speed in any run is 100 or in [FAN_MIN, FAN_MAX], and its byte is in [0, 255] |
| SnmpController.CriticalEndsRun | fan_control.py:76-79 | the first critical tick ends the run with `Auto`; the ticks and the interrupt after it are irrelevant |
| SnmpController.InterruptRevertsToAuto | fan_control.py:65-97 | interrupted before any critical tick, the trace is exactly `Manual`, then for each tick in order the speed the curve gives its hottest reading, then `Auto` |
| SnmpController.EmittedCurveSpeeds | fan_control.py:69-88 | ticks below CRIT_TEMP send, in order, one speed each: the curve's duty for that tick's hottest reading |
| SnmpController.ScenarioRamp | fan_control.py:83-88 | with the defaults 20/90/65/75, a hottest sensor at 40 degrees gives `[Manual, Speed(63)]` |
| SnmpController.ScenarioSafe | fan_control.py:80-82 | with the defaults, a hottest sensor at 70 degrees gives `[Manual, Speed(100)]` |
| SnmpController.ScenarioCritical | fan_control.py:76-79 | with the defaults, a hottest sensor at 80 degrees gives `[Manual, Auto]` and stops, ignoring the later tick and the interrupt |
| SdrText.Strip | fancontrol.py:23 | `strip()` returns the input with only whitespace removed, and only at the two ends: the result sits in the input with whitespace alone before and after it, has no whitespace at either end, and is empty exactly when the input is all whitespace |
| SdrText.StripTrailing | fancontrol.py:23 | text that starts and ends with non-whitespace strips back to itself when only whitespace follows it |
| SdrText.Tokens | fancontrol.py:33 | every token of `split()` is a non-empty run of non-whitespace, and there are none exactly when the line is all whitespace |
| SdrText.TokensAreWords | fancontrol.py:33 | every token of `split()` is a non-empty run of non-whitespace |
| SdrText.NextToken | fancontrol.py:33 | `split()` takes the next maximal run of non-whitespace after the whitespace that precedes it |
| SdrText.DegreesLineHasTwoTokens | fancontrol.py:31-33 | a line containing "degrees C" has at least two tokens, so `split()[-2]` cannot fail on the index |
| SdrText.SplitLines | fancontrol.py:30 | no line returned by `splitlines()` contains a line break |
| SdrText.SplitJoin | fancontrol.py:30 | `splitlines()` of lines joined by "\n" gives the lines back, when none is broken and the last is not empty |
| SdrText.ParseInt | fancontrol.py:33-35 | `int(token)` succeeds exactly on one or more digits, optionally after a sign; any later non-digit makes it fail |
| SdrText.ParseShow | fancontrol.py:33 | `int` of the decimal text of any integer is that integer |
| SdrReader.RunIpmi | fancontrol.py:17-23 | `None` exactly on a non-zero exit status; otherwise the output with only leading and trailing whitespace removed, empty exactly when the output was all whitespace |
| SdrReader.LineTemp | fancontrol.py:31-35 | as written, a line without "degrees C" yields nothing; one with it has at least two tokens and yields a value exactly when its second-to-last token parses as an integer, and then that integer |
| SdrReader.LineTemps | fancontrol.py:29-35 | every line that parses contributes its value, and every value comes from a line that parses |
| SdrReader.ScanTemps | fancontrol.py:25-36 | `None` for failed or empty output, or when no line parses; otherwise a value some line parses to, at least every parsed value |
| SdrReader.GetMaxTemp | fancontrol.py:25-36 | as written, `None` for failed or empty output or when no line yields a value; otherwise the value of some line, at least that of every line |
| SdrReader.FailedSdrGivesNone | fancontrol.py:19-28 | a failed call or an all-whitespace output gives no reading |
| SdrReader.LineTempReadsSecondToLast | fancontrol.py:31-33 | as written, a "degrees C" line whose second-to-last token is a number yields that number |
| SdrReader.TrailingDegreesIgnored | fancontrol.py:31-35 | as written, a line ending "… degrees C" never yields a temperature |
| SdrReader.ColumnLineIgnored | fancontrol.py:31-35 | as written, a column-layout line (name, bar, value "degrees C", bar, status) never yields a temperature |
| SdrReader.ColumnLineTokens | fancontrol.py:33 | the tokens of a column-layout line are the name, a bar, the value, "degrees", "C", a bar and the status |
| SdrReader.LineTempFixed | fancontrol.py:31-35 | corrected, a line without "degrees C" yields nothing, and a value a line yields is the integer in the token just before its first "degrees" token |
| SdrReader.GetMaxTempFixed | fancontrol.py:25-36 | corrected, `None` for failed or empty output or when no line yields a value; otherwise the value of some line, at least that of every line |
| SdrReader.FixedReadsValue | fancontrol.py:31-35 | corrected, a line reads the printed number just before its first "degrees" token |
| SdrReader.ColumnLineFixed | fancontrol.py:31-35 | corrected, a column-layout line reads back the value it prints |
| SdrReader.ScanEveryLine | fancontrol.py:29-36 | when every line of a non-empty output reads a value, the scan returns the largest of them |
| SdrReader.ColumnTable | fancontrol.py:25-36 | for any non-empty column-layout table, `get_max_temp` as written returns `None`, and the corrected one returns the largest printed value |
| SdrReader.TableOutputRun | fancontrol.py:17-23 | `run_ipmi` hands over a table's printed output, final line break included, as exactly its lines joined by "\n" |
| SdrReader.ColumnTableOutput | fancontrol.py:25-36 | from the subprocess on, a printed column-layout table reads as `None` as written and as its hottest row corrected |
| IpmiController.Readings | fancontrol.py:54 | each tick's reading is the scan of that tick's ipmitool output, `None` whenever ipmitool failed |
| IpmiController.Tick | fancontrol.py:53-79 | a tick sends nothing and continues exactly on a failed reading; it sends exactly `[Auto]` and breaks iff a reading is at or above CRIT_TEMP; it finishes only in "oneshot" mode; every speed is 100 or in [20, 90]; with SAFE_TEMP > 0 a reading below CRIT_TEMP sends the hard-coded curve's speed and breaks iff the mode is "oneshot" |
| IpmiController.Main | fancontrol.py:49-86 | the script as written: one `Manual` first, never again; `Auto` only last, and only for a critical or interrupted run |
| IpmiController.MainFixed | fancontrol.py:49-86 | the script with the corrected reader: the same trace shape |
| IpmiController.ColumnTablesNeverRead | fancontrol.py:25-86 | as written, when every tick's ipmitool output is a column-layout table, the run sends `Manual` and then nothing, whatever the temperatures, until the interrupt handler's `Auto` |
| IpmiController.ColumnTableReadFixed | fancontrol.py:25-86 | corrected, a table whose hottest row is below CRIT_TEMP gets the hard-coded curve's speed for that row |
| IpmiController.FailedReadingIsSilent | fancontrol.py:54-58 | a failed reading sends nothing and changes nothing, even in "oneshot" mode |
| IpmiController.CriticalTick | fancontrol.py:62-77 | a reading sends exactly `[Auto]` and breaks iff it is at or above CRIT_TEMP; below it, the tick sends one speed and breaks iff the mode is "oneshot" |
| IpmiController.SafeBandTick | fancontrol.py:66-68 | between SAFE_TEMP and CRIT_TEMP the tick commands 100 % |
| IpmiController.RampTick | fancontrol.py:69-74 | for 0 <= t < SAFE_TEMP < CRIT_TEMP the speed is 20 + floor(70*t/SAFE_TEMP) |
| IpmiController.MainLoopSpeedsInRange | fancontrol.py:44-74 | in every run, every speed is 100 or in [20, 90]; a speed in [20, 90] has its byte in [51, 229] |
| IpmiController.OneshotStopsAtFirstReading | fancontrol.py:54-77 | in "oneshot" mode the run ends at the first successful reading: `[Manual, Auto]` if critical, otherwise `[Manual, Speed(p)]`, Finished |
| IpmiController.ContinuousNeverFinishes | fancontrol.py:76-79 | in any other mode the loop never finishes by itself |
| IpmiController.CriticalEndsRun | fancontrol.py:62-65 | the first critical reading ends the run with `Auto`; later readings and the interrupt are irrelevant |
| IpmiController.InterruptRevertsToAuto | fancontrol.py:49-86 | interrupted before any critical reading, the trace is exactly `Manual`, then for each successful reading in order the speed the curve gives it, then `Auto` |
| IpmiController.Successful | fancontrol.py:54-58 | the successful readings' temperatures: every one of them and nothing else, all of them exactly when no reading failed |
| IpmiController.EmittedCurveSpeeds | fancontrol.py:53-79 | readings below CRIT_TEMP send, in order, the curve's speed for each successful one and nothing for a failed one |
| IpmiController.Scenarios | fancontrol.py:49-79 | with the defaults 65/75: a failed reading then 40 gives 63 %, 70 gives 100 %, "oneshot" stops after 63 %, and 80 gives `[Manual, Auto]` and stops |

## Left out

- The transports are not modelled: SNMP (`snmp_get`, pysnmp, the OIDs) and the ipmitool subprocess (`ipmi_cmd`, and the `subprocess.run` inside `run_ipmi`). Each tick's sensor readings, or its ipmitool exit status and output, are inputs. A command is an abstract value together with the argument bytes it would carry.
- Environment variables and `int(os.getenv(...))` are not modelled. The thresholds and MODE are parameters. Invalid settings are not excluded except where a lemma says so; a SAFE_TEMP of 0 is modelled as the ZeroDivisionError the ramp would raise, which ends the run without `Auto`.
- `time.sleep`, INTERVAL and every `print` are left out: they change no command.
- Interrupts are modelled only between ticks, as a flag after the last tick given. A Ctrl-C in the middle of a tick, between two ipmitool calls, is not modelled.
- Float rounding is not modelled. The ramp `(t / SAFE_TEMP) * span` is computed over exact rationals and then truncated toward zero, so a float result just below an integer is not reproduced.
- SdrText.ParseInt accepts only an optional sign and ASCII digits. Python's `int` also accepts surrounding whitespace, underscores and other Unicode digits; tokens from `split()` never carry whitespace.
- Neither script looks at the exit status of the `set_fan_*` calls, so a command counts as sent whether or not ipmitool succeeded.
- `hex()` formatting of the byte is left out: the argument is the integer byte.
- Other `ipmitool sdr` line layouts and multi-word sensor names are not modelled. The column-layout lemmas take one-word name and status columns.
- fancontrol.py's `result.stderr` and the "IPMI error" message are left out: they only reach `print`.

## Findings

| source | as written | input that shows it | evidently intended | confidence | as-written member | corrected member |
|---|---|---|---|---|---|---|
| fancontrol.py:33 | `int(line.split()[-2])` takes the second-to-last token of a "degrees C" line. ipmitool prints the value immediately before "degrees", so that token is "degrees" (line ends "22 degrees C") or the vertical bar that separates the columns (line `Inlet`, bar, `22 degrees C`, bar, `ok`). `int` rejects it, the line is skipped, `get_max_temp` returns `None` on every table, and the loop retries forever without setting a speed. | the column-layout line `Inlet`, bar, `22 degrees C`, bar, `ok`; also the line `22 degrees C` | read the token just before "degrees", so the line yields 22 | not executed | SdrReader.ColumnLineIgnored | SdrReader.ColumnLineFixed |

The whole-table version is SdrReader.ColumnTable, and SdrReader.ColumnTableOutput starts from the subprocess output. As written, `GetMaxTemp` is `None` on every non-empty column-layout table; the corrected `GetMaxTempFixed` returns the hottest row. At script level, IpmiController.Main runs `main_loop` as written and IpmiController.ColumnTablesNeverRead shows that it never sets a speed on such tables; IpmiController.MainFixed runs it with the corrected reader, and IpmiController.ColumnTableReadFixed shows it setting the curve's speed.

=== FILE: commands.dfy ===
/** The three controller commands both variants issue through `ipmitool raw`, and
    the byte encoding of the duty cycle (`set_fan_manual`, `set_fan_auto`,
    `set_fan_speed` in either script). */
module Commands {
  import opened Optional
  import opened Numeric

  /** One actuator command: manual fan control, automatic fan control, or a duty
      cycle in percent. */
  datatype Command = Manual | Auto | Speed(percent: int)

  /** A speed command whose percentage the controller's byte range can carry. */
  predicate InRange(c: Command) {
    c.Speed? ==> 0 <= c.percent <= 100
  }

  /** `int(percent * 255 / 100)`: the duty cycle scaled to the controller's byte. */
  function PercentToByte(p: int): (b: int)
    ensures 0 <= p <= 100 ==> 0 <= b <= 255
    ensures p >= 0 ==> b * 100 <= p * 255 < b * 100 + 100
  {
    TruncDiv(p * 255, 100)
  }

  /** The endpoints of the scale: 0 % is byte 0 and 100 % is byte 0xff. */
  lemma ByteEndpoints()
    ensures PercentToByte(0) == 0
    ensures PercentToByte(100) == 255
  {
  }

  /** One percent is worth more than two byte steps, so the mapping is strictly
      increasing: distinct percentages never share a byte. */
  lemma {:induction false} ByteStrictlyMonotone(p: int, q: int)
    requires 0 <= p < q
    ensures PercentToByte(p) < PercentToByte(q)
  {
    var bp, bq := PercentToByte(p), PercentToByte(q);
    assert bq * 100 + 100 > q * 255 >= p * 255 + 255;
    assert bp * 100 <= p * 255;
  }

  /** The smallest percentage whose byte is at least `b`: ceiling of b * 100 / 255. */
  function ByteToPercent(b: int): int
  {
    (b * 100 + 254) / 255
  }

  /** The byte of a duty cycle in [0, 100] determines the duty cycle. */
  lemma {:induction false} ByteRoundTrip(p: int)
    requires 0 <= p <= 100
    ensures ByteToPercent(PercentToByte(p)) == p
  {
    var b := PercentToByte(p);
    assert p * 255 <= b * 100 + 254 < p * 255 + 255;
  }

  /** The argument bytes after `ipmitool raw`: netfn 0x30, command 0x30, then
      0x01 0x00 (manual), 0x01 0x01 (automatic) or 0x02 0xff <byte> (all fans). */
  function RawArgs(c: Command): (a: seq<int>)
    ensures |a| >= 4 && a[0] == 0x30 && a[1] == 0x30
    ensures |a| == 5 <==> c.Speed?
    ensures InRange(c) ==> forall i | 0 <= i < |a| :: 0 <= a[i] <= 255
    ensures InRange(c) && c.Speed? ==> ByteToPercent(a[4]) == c.percent
  {
    match c
    case Manual => [0x30, 0x30, 0x01, 0x00]
    case Auto => [0x30, 0x30, 0x01, 0x01]
    case Speed(p) =>
      assert 0 <= p <= 100 ==> ByteToPercent(PercentToByte(p)) == p by {
        if 0 <= p <= 100 {
          ByteRoundTrip(p);
        }
      }
      [0x30, 0x30, 0x02, 0xff, PercentToByte(p)]
  }

  /** Reads a raw argument list back as a command, rejecting anything the
      controllers could not have sent. */
  function ParseRaw(args: seq<int>): (r: Option<Command>)
    ensures r.Some? ==> InRange(r.value) && RawArgs(r.value) == args
  {
    if args == [0x30, 0x30, 0x01, 0x00] then Some(Manual)
    else if args == [0x30, 0x30, 0x01, 0x01] then Some(Auto)
    else if |args| == 5 && args[..4] == [0x30, 0x30, 0x02, 0xff] && 0 <= args[4] <= 255 then
      var p := ByteToPercent(args[4]);
      if 0 <= p <= 100 && PercentToByte(p) == args[4] then Some(Speed(p)) else None
    else None
  }

  /** Every command the controllers can send is recovered from its bytes. */
  lemma {:induction false} RawRoundTrip(c: Command)
    requires InRange(c)
    ensures ParseRaw(RawArgs(c)) == Some(c)
  {
    match c
    case Manual =>
    case Auto =>
    case Speed(p) =>
      var args := RawArgs(c);
      assert args[..4] == [0x30, 0x30, 0x02, 0xff];
      ByteRoundTrip(p);
  }

  /** Distinct commands put distinct bytes on the wire. */
  lemma RawInjective(c1: Command, c2: Command)
    requires InRange(c1) && InRange(c2)
    requires RawArgs(c1) == RawArgs(c2)
    ensures c1 == c2
  {
    RawRoundTrip(c1);
    RawRoundTrip(c2);
  }
}

=== FILE: control_loop.dfy ===
/** The control loop shared by both scripts, as a function from the inputs of
    successive ticks to the trace of commands it sends. One variant differs from
    the other only in what a single tick does, which each supplies as a function
    from its tick input to a `Step`. */
module ControlLoop {
  import opened Commands

  /** How a run ends: still looping when the inputs run out, reverted to automatic
      control on a critical temperature, finished after a single shot, reverted
      by the KeyboardInterrupt handler, or killed by an uncaught exception with the
      fans left in manual mode. */
  datatype Status = Running | StoppedCritical | Finished | Interrupted | Crashed

  /** What one tick does: send some commands and go round again, or send some
      commands and leave the loop. */
  datatype Step = Continue(cmds: seq<Command>) | Stop(cmds: seq<Command>, status: Status)

  /** The commands sent so far and how the run stands. */
  datatype Outcome = Outcome(trace: seq<Command>, status: Status)

  predicate SpeedsOnly(cmds: seq<Command>) {
    forall i | 0 <= i < |cmds| :: cmds[i].Speed?
  }

  /** The shape every tick of both scripts has: a continuing tick sends only
      speeds; a critical tick sends exactly one `Auto`; a crash sends nothing;
      a single-shot finish sends only speeds. */
  predicate Disciplined(s: Step) {
    match s
    case Continue(cmds) => SpeedsOnly(cmds)
    case Stop(cmds, status) =>
      (status == StoppedCritical && cmds == [Auto])
      || (status == Crashed && cmds == [])
      || (status == Finished && SpeedsOnly(cmds))
  }

  /** The shape of the loop's trace: `Auto` is sent at most once, as the last
      command, and exactly when the run was reverted (critical or interrupt). */
  predicate WellFormed(o: Outcome) {
    if o.status == StoppedCritical || o.status == Interrupted then
      |o.trace| > 0 && o.trace[|o.trace| - 1] == Auto && SpeedsOnly(o.trace[..|o.trace| - 1])
    else
      SpeedsOnly(o.trace)
  }

  /** The `while True` loop: feed each input to `tick`, leave on a `Stop`, and when
      the inputs run out either keep running or, if interrupted, let the
      KeyboardInterrupt handler send `Auto`. */
  function Drive<T>(tick: T -> Step, inputs: seq<T>, interrupted: bool): (o: Outcome)
    ensures (forall i | 0 <= i < |inputs| :: Disciplined(tick(inputs[i]))) ==>
              && WellFormed(o)
              && (o.status == Running ==> !interrupted)
              && (o.status == Interrupted ==> interrupted)
    decreases |inputs|
  {
    if |inputs| == 0 then
      if interrupted then Outcome([Auto], Interrupted) else Outcome([], Running)
    else
      match tick(inputs[0])
      case Stop(cmds, status) => Outcome(cmds, status)
      case Continue(cmds) =>
        var rest := Drive(tick, inputs[1..], interrupted);
        assert (forall i | 0 <= i < |inputs| :: Disciplined(tick(inputs[i])))
               ==> WellFormed(Outcome(cmds + rest.trace, rest.status)) by {
          if forall i | 0 <= i < |inputs| :: Disciplined(tick(inputs[i])) {
            assert forall i | 0 <= i < |inputs| - 1 :: inputs[1..][i] == inputs[i + 1];
            ConsWellFormed(cmds, rest);
          }
        }
        Outcome(cmds + rest.trace, rest.status)
  }

  /** Prepending speeds keeps a trace well formed. */
  lemma ConsWellFormed(cmds: seq<Command>, o: Outcome)
    requires SpeedsOnly(cmds)
    requires WellFormed(o)
    ensures WellFormed(Outcome(cmds + o.trace, o.status))
  {
    var t := cmds + o.trace;
    if o.status == StoppedCritical || o.status == Interrupted {
      assert t[..|t| - 1] == cmds + o.trace[..|o.trace| - 1];
    }
  }

  /** A whole run: one `Manual` at start-up, then the loop. */
  function Run<T>(tick: T -> Step, inputs: seq<T>, interrupted: bool): (o: Outcome)
    ensures |o.trace| > 0 && o.trace[0] == Manual
    ensures (forall i | 0 <= i < |inputs| :: Disciplined(tick(inputs[i]))) ==>
              Manual !in o.trace[1..] && WellFormed(Outcome(o.trace[1..], o.status))
  {
    var o := Drive(tick, inputs, interrupted);
    assert ([Manual] + o.trace)[1..] == o.trace;
    assert (forall i | 0 <= i < |inputs| :: Disciplined(tick(inputs[i]))) ==> Manual !in o.trace by {
      if forall i | 0 <= i < |inputs| :: Disciplined(tick(inputs[i])) {
        NoManual(o);
      }
    }
    Outcome([Manual] + o.trace, o.status)
  }

  /** A well-formed loop trace holds no `Manual`. */
  lemma NoManual(o: Outcome)
    requires WellFormed(o)
    ensures Manual !in o.trace
  {
    if o.status == StoppedCritical || o.status == Interrupted {
      var n := |o.trace|;
      assert o.trace == o.trace[..n - 1] + [Auto];
    }
  }

  /** The commands of the given ticks, all assumed to continue, in order. */
  function Emitted<T>(tick: T -> Step, inputs: seq<T>): seq<Command>
    decreases |inputs|
  {
    if |inputs| == 0 then [] else tick(inputs[0]).cmds + Emitted(tick, inputs[1..])
  }

  /** The loop is sequential across ticks: a run over `a + b` is the run over `a`
      followed by the run over `b`, as long as no tick of `a` leaves the loop. */
  lemma {:induction false} DriveAppend<T>(tick: T -> Step, a: seq<T>, b: seq<T>, interrupted: bool)
    requires forall i | 0 <= i < |a| :: tick(a[i]).Continue?
    ensures Drive(tick, a + b, interrupted)
            == Outcome(Emitted(tick, a) + Drive(tick, b, interrupted).trace, Drive(tick, b, interrupted).status)
    decreases |a|
  {
    if |a| == 0 {
      assert a + b == b;
    } else {
      var cmds, rest := tick(a[0]).cmds, Drive(tick, b, interrupted);
      assert (a + b)[0] == a[0];
      assert (a + b)[1..] == a[1..] + b;
      DriveAppend(tick, a[1..], b, interrupted);
      assert Drive(tick, a + b, interrupted) == Outcome(cmds + Drive(tick, a[1..] + b, interrupted).trace, rest.status);
      assert Emitted(tick, a) == cmds + Emitted(tick, a[1..]);
      assert cmds + (Emitted(tick, a[1..]) + rest.trace) == (cmds + Emitted(tick, a[1..])) + rest.trace;
    }
  }

  /** A run that never leaves the loop and is not interrupted sends exactly the
      commands of its ticks, one tick after another. */
  lemma {:induction false} DriveRunning<T>(tick: T -> Step, inputs: seq<T>)
    requires forall i | 0 <= i < |inputs| :: tick(inputs[i]).Continue?
    ensures Drive(tick, inputs, false) == Outcome(Emitted(tick, inputs), Running)
  {
    DriveAppend(tick, inputs, [], false);
    assert inputs + [] == inputs;
  }

  /** The first tick that leaves the loop ends the run: what comes after it,
      inputs and interrupt alike, has no effect on the trace. */
  lemma {:induction false} DriveStopsAt<T>(tick: T -> Step, inputs: seq<T>, k: nat, interrupted: bool)
    requires k < |inputs|
    requires forall i | 0 <= i < k :: tick(inputs[i]).Continue?
    requires tick(inputs[k]).Stop?
    ensures Drive(tick, inputs, interrupted)
            == Outcome(Emitted(tick, inputs[..k]) + tick(inputs[k]).cmds, tick(inputs[k]).status)
  {
    assert inputs == inputs[..k] + inputs[k..];
    DriveAppend(tick, inputs[..k], inputs[k..], interrupted);
    assert inputs[k..][0] == inputs[k];
  }

  /** An interrupt that arrives while the loop is still running makes the handler
      send `Auto` as the very last command. */
  lemma {:induction false} InterruptEndsInAuto<T>(tick: T -> Step, inputs: seq<T>)
    requires forall i | 0 <= i < |inputs| :: tick(inputs[i]).Continue?
    ensures Drive(tick, inputs, true) == Outcome(Emitted(tick, inputs) + [Auto], Interrupted)
  {
    DriveAppend(tick, inputs, [], true);
    assert inputs + [] == inputs;
  }
}

=== FILE: fan_curve.dfy ===
/** The fan curve: the decision each tick takes from the hottest sensor. */
module FanCurve {
  import opened Numeric

  /** Thresholds of the configurable variant: duty-cycle floor and ceiling of the
      ramp, the temperature at which fans go to 100 %, and the temperature at
      which control is handed back to the firmware. */
  datatype Config = Config(fanMin: int, fanMax: int, safeTemp: int, critTemp: int)

  /** The configuration the controller is meant to run with: percentages ordered
      inside [0, 100] and 0 < SAFE_TEMP < CRIT_TEMP. The code itself never checks it. */
  predicate Valid(cfg: Config) {
    0 <= cfg.fanMin <= cfg.fanMax <= 100 && 0 < cfg.safeTemp < cfg.critTemp
  }

  /** What one evaluation of the curve does: revert to automatic control, command
      a duty cycle, or raise ZeroDivisionError (SAFE_TEMP = 0 and a temperature
      below 0 reach the ramp's division). */
  datatype Decision = Critical | Duty(percent: int) | DivisionByZero

  /** The linear ramp `int(FAN_MIN + (t / SAFE_TEMP) * (FAN_MAX - FAN_MIN))` over
      exact rationals, before clamping. */
  function Ramp(fanMin: int, fanMax: int, safe: int, t: int): int
    requires safe != 0
  {
    TruncDiv(fanMin * safe + t * (fanMax - fanMin), safe)
  }

  /** The curve of the configurable variant: critical at or above CRIT_TEMP, full
      speed at or above SAFE_TEMP, otherwise the ramp clamped by
      `max(FAN_MIN, min(FAN_MAX, ...))`. */
  function Decide(cfg: Config, t: int): (d: Decision)
    ensures d == Critical <==> t >= cfg.critTemp
    ensures d == DivisionByZero <==> t < cfg.critTemp && t < cfg.safeTemp && cfg.safeTemp == 0
    ensures d.Duty? && t < cfg.safeTemp ==> cfg.fanMin <= d.percent
    ensures d.Duty? && t < cfg.safeTemp && cfg.fanMin <= cfg.fanMax ==> d.percent <= cfg.fanMax
    ensures d.Duty? && t >= cfg.safeTemp ==> d.percent == 100
  {
    if t >= cfg.critTemp then Critical
    else if t >= cfg.safeTemp then Duty(100)
    else if cfg.safeTemp == 0 then DivisionByZero
    else
      var speed := Ramp(cfg.fanMin, cfg.fanMax, cfg.safeTemp, t);
      Duty(Max2(cfg.fanMin, Min2(cfg.fanMax, speed)))
  }

  /** Below SAFE_TEMP every non-critical temperature of a valid configuration gets
      a duty cycle in [FAN_MIN, FAN_MAX]; between SAFE_TEMP and CRIT_TEMP it gets
      exactly 100, whatever FAN_MAX is. */
  lemma DutyBands(cfg: Config, t: int)
    requires Valid(cfg)
    requires t < cfg.critTemp
    ensures Decide(cfg, t).Duty?
    ensures t < cfg.safeTemp ==> cfg.fanMin <= Decide(cfg, t).percent <= cfg.fanMax
    ensures t >= cfg.safeTemp ==> Decide(cfg, t) == Duty(100)
  {
  }

  /** With no valid sensor the aggregated temperature is 0, and the curve answers
      FAN_MIN. */
  lemma NoDataIsFanMin(cfg: Config)
    requires 0 < cfg.safeTemp && 0 < cfg.critTemp
    ensures Decide(cfg, 0) == Duty(cfg.fanMin)
  {
    assert cfg.fanMin * cfg.safeTemp + 0 * (cfg.fanMax - cfg.fanMin) == cfg.fanMin * cfg.safeTemp;
    DivExact(cfg.fanMin, cfg.safeTemp);
  }

  lemma DivExact(a: int, d: int)
    requires d > 0
    ensures TruncDiv(a * d, d) == a
  {
    var q := TruncDiv(a * d, d);
    if q < a {
      MulMonotone(q + 1, a, d);
    } else if q > a {
      MulMonotone(a + 1, q, d);
    }
  }

  /** Between 0 and SAFE_TEMP the clamp never bites: the duty cycle is exactly
      FAN_MIN plus the floor of t * (FAN_MAX - FAN_MIN) / SAFE_TEMP. */
  lemma {:induction false} RampReference(cfg: Config, t: int)
    requires Valid(cfg)
    requires 0 <= t < cfg.safeTemp
    ensures Decide(cfg, t) == Duty(cfg.fanMin + t * (cfg.fanMax - cfg.fanMin) / cfg.safeTemp)
  {
    var s, span := cfg.safeTemp, cfg.fanMax - cfg.fanMin;
    MulMonotone(0, t, span);
    MulMonotone(t, s, span);
    var x := t * span;
    RampShift(cfg.fanMin, x, s);
    QuotientAtMost(x, s, span);
    assert 0 <= x / s <= span by {
      assert 0 <= x;
      DivisionBounds(x, s);
    }
    var speed := Ramp(cfg.fanMin, cfg.fanMax, s, t);
    assert speed == cfg.fanMin + x / s;
    assert cfg.fanMin <= speed <= cfg.fanMax;
    assert Decide(cfg, t) == Duty(Max2(cfg.fanMin, Min2(cfg.fanMax, speed)));
  }

  /** Adding a whole multiple of the divisor shifts the floor quotient by it. */
  lemma RampShift(a: int, x: int, s: int)
    requires x >= 0 && s > 0 && a >= 0
    ensures TruncDiv(a * s + x, s) == a + x / s
  {
    var q, r := x / s, x % s;
    assert a * s + x == (a + q) * s + r;
    DivUnique(a * s + x, s, a + q, r);
  }

  lemma QuotientAtMost(x: int, s: int, k: int)
    requires s > 0 && 0 <= x <= s * k
    ensures x / s <= k
  {
    DivisionBounds(x, s);
    if x / s > k {
      MulMonotone(k + 1, x / s, s);
    }
  }

  /** Floor division is determined by any quotient/remainder pair. */
  lemma DivUnique(n: int, d: int, q: int, r: int)
    requires d > 0 && 0 <= r < d && n == q * d + r
    requires n >= 0
    ensures TruncDiv(n, d) == q
  {
    var q' := TruncDiv(n, d);
    if q' < q {
      MulMonotone(q' + 1, q, d);
    } else if q' > q {
      MulMonotone(q + 1, q', d);
    }
  }

  /** The commanded speed never drops when the temperature rises, over the whole
      non-critical range, for SAFE_TEMP > 0 and FAN_MIN <= FAN_MAX <= 100. */
  lemma {:induction false} CurveMonotone(cfg: Config, t1: int, t2: int)
    requires 0 < cfg.safeTemp
    requires cfg.fanMin <= cfg.fanMax <= 100
    requires t1 <= t2 < cfg.critTemp
    ensures Decide(cfg, t1).Duty? && Decide(cfg, t2).Duty?
    ensures Decide(cfg, t1).percent <= Decide(cfg, t2).percent
  {
    var s := cfg.safeTemp;
    if t2 < s {
      var span := cfg.fanMax - cfg.fanMin;
      MulMonotone(t1, t2, span);
      TruncDivMonotone(cfg.fanMin * s + t1 * span, cfg.fanMin * s + t2 * span, s);
    }
  }

  /** The curve of the hard-coded variant: `int(20 + (t / SAFE_TEMP) * 70)`
      clamped by `min(max(speed, 20), 90)`. It is the configurable curve with
      FAN_MIN = 20 and FAN_MAX = 90: the two clamp orders agree because 20 <= 90.
      So every duty cycle is 100 or lies in [20, 90], for any thresholds. */
  function DecideFixed(safe: int, crit: int, t: int): (d: Decision)
    ensures d == Decide(Config(20, 90, safe, crit), t)
    ensures d.Duty? ==> d.percent == 100 || 20 <= d.percent <= 90
  {
    if t >= crit then Critical
    else if t >= safe then Duty(100)
    else if safe == 0 then DivisionByZero
    else
      var speed := TruncDiv(20 * safe + t * 70, safe);
      Duty(Min2(Max2(speed, 20), 90))
  }

  /** With SAFE_TEMP positive the hard-coded curve never lowers the speed as the
      temperature rises, up to CRIT_TEMP. */
  lemma FixedMonotone(safe: int, crit: int, t1: int, t2: int)
    requires 0 < safe
    requires t1 <= t2 < crit
    ensures DecideFixed(safe, crit, t1).Duty? && DecideFixed(safe, crit, t2).Duty?
    ensures DecideFixed(safe, crit, t1).percent <= DecideFixed(safe, crit, t2).percent
  {
    CurveMonotone(Config(20, 90, safe, crit), t1, t2);
  }
}

=== FILE: ipmi_controller.dfy ===
/** The IPMI-only controller of fancontrol.py: each tick reads the hottest
    temperature out of `ipmitool sdr`, applies the hard-coded curve, and in
    "oneshot" mode leaves after the first reading it acts on. The ipmitool
    subprocess is not modelled; each tick's exit status and output are an input.
    `Main` reads temperatures as the script is written, `MainFixed` with the
    corrected line reader. */
module IpmiController {
  import opened Optional
  import opened Numeric
  import opened Commands
  import opened FanCurve
  import opened ControlLoop
  import opened SdrReader

  /** The MODE value that makes the loop leave after one successful reading. */
  const Oneshot: string := "oneshot"

  /** What `get_max_temp` returns on each tick, for the ipmitool results of the
      successive ticks, when each output line is read with `parse`. */
  function Readings(sdr: seq<IpmiResult>, parse: string -> Option<int>): (rs: seq<Option<int>>)
    ensures |rs| == |sdr|
    ensures forall i | 0 <= i < |sdr| :: rs[i] == ScanTemps(RunIpmi(sdr[i]), parse)
    ensures forall i | 0 <= i < |sdr| :: sdr[i].returnCode != 0 ==> rs[i].None?
  {
    seq(|sdr|, i requires 0 <= i < |sdr| => ScanTemps(RunIpmi(sdr[i]), parse))
  }

  /** One pass of the `while True` body of `main_loop`: retry silently on a
      failed reading; otherwise revert and break on a critical temperature, or
      set the speed the curve chooses and break if the mode is "oneshot". A
      zero SAFE_TEMP below it raises ZeroDivisionError. */
  function Tick(safe: int, crit: int, mode: string, reading: Option<int>): (s: Step)
    ensures Disciplined(s)
    ensures s == Continue([]) <==> reading.None?
    ensures reading.Some? ==> (s == Stop([Auto], StoppedCritical) <==> reading.value >= crit)
    ensures s.Stop? && s.status == Finished ==> mode == Oneshot
    ensures forall c | c in s.cmds :: c.Speed? ==> c.percent == 100 || 20 <= c.percent <= 90
    ensures reading.Some? && reading.value < crit && safe > 0 ==>
              && s.cmds == [Speed(DecideFixed(safe, crit, reading.value).percent)]
              && (s.Stop? <==> mode == Oneshot)
  {
    match reading
    case None => Continue([])
    case Some(t) =>
      match DecideFixed(safe, crit, t)
      case Critical => Stop([Auto], StoppedCritical)
      case DivisionByZero => Stop([], Crashed)
      case Duty(p) => if mode == Oneshot then Stop([Speed(p)], Finished) else Continue([Speed(p)])
  }

  /** `main_loop` with the KeyboardInterrupt handler of the script's entry point,
      over the readings of successive ticks and whether an interrupt arrives
      after the last of them. */
  function MainLoop(safe: int, crit: int, mode: string, readings: seq<Option<int>>, interrupted: bool): (o: Outcome)
  {
    Run(r => Tick(safe, crit, mode, r), readings, interrupted)
  }

  /** The script as written, from the raw ipmitool results of successive ticks:
      `get_max_temp` reads the second-to-last token of each "degrees C" line.
      The trace opens with the single `Manual` of start-up; no later command is
      `Manual`, and `Auto`, if sent at all, is the last command and ends a
      critical or interrupted run. */
  function Main(safe: int, crit: int, mode: string, sdr: seq<IpmiResult>, interrupted: bool): (o: Outcome)
    ensures |o.trace| > 0 && o.trace[0] == Manual
    ensures Manual !in o.trace[1..]
    ensures WellFormed(Outcome(o.trace[1..], o.status))
  {
    MainLoop(safe, crit, mode, Readings(sdr, LineTemp), interrupted)
  }

  /** The script with `get_max_temp` corrected to read the token before
      "degrees", where ipmitool prints the value. */
  function MainFixed(safe: int, crit: int, mode: string, sdr: seq<IpmiResult>, interrupted: bool): (o: Outcome)
    ensures |o.trace| > 0 && o.trace[0] == Manual
    ensures Manual !in o.trace[1..]
    ensures WellFormed(Outcome(o.trace[1..], o.status))
  {
    MainLoop(safe, crit, mode, Readings(sdr, LineTempFixed), interrupted)
  }

  /** What ipmitool hands back on successive ticks when each prints a table. */
  function TableResults(tables: seq<seq<SdrRow>>): seq<IpmiResult>
  {
    seq(|tables|, k requires 0 <= k < |tables| => IpmiResult(0, TableOutput(tables[k])))
  }

  /** A single reading below CRIT_TEMP sends its curve speed after `Manual`. */
  lemma {:induction false} OneReading(safe: int, crit: int, mode: string, t: int)
    requires safe > 0 && t < crit
    ensures MainLoop(safe, crit, mode, [Some(t)], false).trace == [Manual, Speed(DecideFixed(safe, crit, t).percent)]
  {
    var tick := r => Tick(safe, crit, mode, r);
    var rs := [Some(t)];
    var p := Speed(DecideFixed(safe, crit, t).percent);
    assert tick(rs[0]).cmds == [p];
    assert rs[1..] == [];
    assert Drive(tick, rs[1..], false) == Outcome([], Running);
    assert Drive(tick, rs, false).trace == [p];
  }

  lemma {:induction false} TableReadingFixed(rows: seq<SdrRow>)
    requires |rows| > 0
    requires forall i | 0 <= i < |rows| :: PlainRow(rows[i])
    ensures Readings([IpmiResult(0, TableOutput(rows))], LineTempFixed) == [Some(Max(TableValues(rows)))]
  {
    ColumnTableOutput(rows);
  }

  /** As written, when ipmitool prints its column table on every tick, no tick
      ever gets a temperature: after `Manual` nothing is sent, whatever the
      temperatures, until the interrupt handler hands back with `Auto`. */
  lemma {:induction false} ColumnTablesNeverRead(safe: int, crit: int, mode: string, tables: seq<seq<SdrRow>>, interrupted: bool)
    requires forall k | 0 <= k < |tables| :: |tables[k]| > 0
    requires forall k, i | 0 <= k < |tables| && 0 <= i < |tables[k]| :: PlainRow(tables[k][i])
    ensures Main(safe, crit, mode, TableResults(tables), interrupted)
            == if interrupted then Outcome([Manual, Auto], Interrupted) else Outcome([Manual], Running)
  {
    var sdr := TableResults(tables);
    var rs := Readings(sdr, LineTemp);
    forall k | 0 <= k < |rs| ensures rs[k] == None {
      ColumnTableOutput(tables[k]);
    }
    var tick := r => Tick(safe, crit, mode, r);
    SilentPrefix(tick, rs);
    if interrupted {
      InterruptEndsInAuto(tick, rs);
    } else {
      DriveRunning(tick, rs);
    }
  }

  /** Corrected, a table whose hottest row is below CRIT_TEMP gets the speed the
      curve chooses for that row. */
  lemma {:induction false} ColumnTableReadFixed(safe: int, crit: int, mode: string, rows: seq<SdrRow>)
    requires |rows| > 0
    requires forall i | 0 <= i < |rows| :: PlainRow(rows[i])
    requires safe > 0 && Max(TableValues(rows)) < crit
    ensures MainFixed(safe, crit, mode, [IpmiResult(0, TableOutput(rows))], false).trace
            == [Manual, Speed(DecideFixed(safe, crit, Max(TableValues(rows))).percent)]
  {
    var m := Max(TableValues(rows));
    var sdr := [IpmiResult(0, TableOutput(rows))];
    TableReadingFixed(rows);
    OneReading(safe, crit, mode, m);
    assert MainFixed(safe, crit, mode, sdr, false) == MainLoop(safe, crit, mode, [Some(m)], false);
  }

  /** A failed reading sends nothing and goes round again, even in "oneshot"
      mode: the run is as if that tick had not happened. */
  lemma {:induction false} FailedReadingIsSilent(safe: int, crit: int, mode: string, readings: seq<Option<int>>, interrupted: bool)
    ensures MainLoop(safe, crit, mode, [None] + readings, interrupted) == MainLoop(safe, crit, mode, readings, interrupted)
  {
    var tick := r => Tick(safe, crit, mode, r);
    var xs := [None] + readings;
    assert xs[0] == None && xs[1..] == readings;
    var rest := Drive(tick, readings, interrupted);
    assert Drive(tick, xs, interrupted) == Outcome([] + rest.trace, rest.status);
    assert [] + rest.trace == rest.trace;
  }

  /** At or above CRIT_TEMP a reading makes the tick send exactly `Auto` and
      leave; below it, with SAFE_TEMP positive, the tick sends one speed and
      leaves only in "oneshot" mode. */
  lemma CriticalTick(safe: int, crit: int, mode: string, t: int)
    requires safe > 0
    ensures t >= crit <==> Tick(safe, crit, mode, Some(t)) == Stop([Auto], StoppedCritical)
    ensures t < crit ==> Tick(safe, crit, mode, Some(t)).cmds == [Speed(DecideFixed(safe, crit, t).percent)]
    ensures t < crit ==> (Tick(safe, crit, mode, Some(t)).Stop? <==> mode == Oneshot)
  {
  }

  /** Between SAFE_TEMP and CRIT_TEMP a tick commands exactly 100 %. */
  lemma SafeBandTick(safe: int, crit: int, mode: string, t: int)
    requires safe <= t < crit
    ensures Tick(safe, crit, mode, Some(t)).cmds == [Speed(100)]
  {
  }

  /** Below SAFE_TEMP the speed follows the linear curve from 20 % at 0 degrees
      toward 90 % at SAFE_TEMP, truncated toward zero and clamped to [20, 90]. */
  lemma {:induction false} RampTick(safe: int, crit: int, mode: string, t: int)
    requires 0 <= t < safe && safe < crit
    ensures Tick(safe, crit, mode, Some(t)).cmds == [Speed(20 + t * 70 / safe)]
  {
    RampReference(Config(20, 90, safe, crit), t);
  }

  /** Whatever the thresholds, mode and readings, every speed command is 100 or
      lies in [20, 90], so its byte lies in [51, 229] or is 255. */
  lemma {:induction false} MainLoopSpeedsInRange(safe: int, crit: int, mode: string, readings: seq<Option<int>>, interrupted: bool)
    ensures forall c | c in MainLoop(safe, crit, mode, readings, interrupted).trace ::
              c.Speed? ==> (c.percent == 100 || 20 <= c.percent <= 90)
                           && (c.percent == 100 || 51 <= PercentToByte(c.percent) <= 229)
  {
    var tick := r => Tick(safe, crit, mode, r);
    DriveSpeeds(safe, crit, mode, readings, interrupted);
    assert MainLoop(safe, crit, mode, readings, interrupted).trace == [Manual] + Drive(tick, readings, interrupted).trace;
    forall p | 20 <= p <= 90 ensures 51 <= PercentToByte(p) <= 229 {
      if p > 20 {
        ByteStrictlyMonotone(20, p);
      }
      if p < 90 {
        ByteStrictlyMonotone(p, 90);
      }
    }
  }

  lemma {:induction false} DriveSpeeds(safe: int, crit: int, mode: string, readings: seq<Option<int>>, interrupted: bool)
    ensures forall c | c in Drive(r => Tick(safe, crit, mode, r), readings, interrupted).trace ::
              c.Speed? ==> c.percent == 100 || 20 <= c.percent <= 90
    decreases |readings|
  {
    if |readings| > 0 {
      var tick := r => Tick(safe, crit, mode, r);
      var rest := Drive(tick, readings[1..], interrupted);
      DriveSpeeds(safe, crit, mode, readings[1..], interrupted);
      match tick(readings[0])
      case Stop(cmds, status) =>
      case Continue(cmds) =>
        assert Drive(tick, readings, interrupted).trace == cmds + rest.trace;
    }
  }

  /** In "oneshot" mode the run ends at the first successful reading, after at
      most one command: a speed (status Finished), or `Auto` when that reading is
      critical. The failed readings before it and everything after it change
      nothing. */
  lemma {:induction false} OneshotStopsAtFirstReading(safe: int, crit: int, readings: seq<Option<int>>, k: nat, interrupted: bool)
    requires safe > 0
    requires k < |readings| && readings[k].Some?
    requires forall i | 0 <= i < k :: readings[i].None?
    ensures var o := MainLoop(safe, crit, Oneshot, readings, interrupted);
      && |o.trace| == 2
      && (readings[k].value >= crit ==> o == Outcome([Manual, Auto], StoppedCritical))
      && (readings[k].value < crit ==>
            o == Outcome([Manual, Speed(DecideFixed(safe, crit, readings[k].value).percent)], Finished))
  {
    var tick := r => Tick(safe, crit, Oneshot, r);
    CriticalTick(safe, crit, Oneshot, readings[k].value);
    DriveStopsAt(tick, readings, k, interrupted);
    SilentPrefix(tick, readings[..k]);
  }

  /** Failed readings send nothing. */
  lemma {:induction false} SilentPrefix(tick: Option<int> -> Step, rs: seq<Option<int>>)
    requires forall r: Option<int> | r.None? :: tick(r) == Continue([])
    requires forall i | 0 <= i < |rs| :: rs[i].None?
    ensures Emitted(tick, rs) == []
    decreases |rs|
  {
    if |rs| > 0 {
      SilentPrefix(tick, rs[1..]);
    }
  }

  /** In any other mode the loop never finishes on its own: it only leaves on a
      critical temperature, a crash, or the interrupt handler. */
  lemma {:induction false} ContinuousNeverFinishes(safe: int, crit: int, mode: string, readings: seq<Option<int>>, interrupted: bool)
    requires mode != Oneshot
    ensures MainLoop(safe, crit, mode, readings, interrupted).status != Finished
    decreases |readings|
  {
    if |readings| > 0 {
      ContinuousNeverFinishes(safe, crit, mode, readings[1..], interrupted);
    }
  }

  /** The first critical reading ends the run with `Auto`; the readings and the
      interrupt after it change nothing. */
  lemma {:induction false} CriticalEndsRun(safe: int, crit: int, mode: string, readings: seq<Option<int>>, k: nat, interrupted: bool)
    requires safe > 0 && mode != Oneshot
    requires k < |readings| && readings[k].Some? && readings[k].value >= crit
    requires forall i | 0 <= i < k :: readings[i].None? || readings[i].value < crit
    ensures MainLoop(safe, crit, mode, readings, interrupted).status == StoppedCritical
    ensures MainLoop(safe, crit, mode, readings, interrupted) == MainLoop(safe, crit, mode, readings[..k + 1], false)
    ensures var tr := MainLoop(safe, crit, mode, readings, interrupted).trace; tr[|tr| - 1] == Auto
  {
    var tick := r => Tick(safe, crit, mode, r);
    forall i | 0 <= i < k ensures tick(readings[i]).Continue? {
      if readings[i].Some? {
        CriticalTick(safe, crit, mode, readings[i].value);
      }
    }
    CriticalTick(safe, crit, mode, readings[k].value);
    DriveStopsAt(tick, readings, k, interrupted);
    var pre := readings[..k + 1];
    assert pre[..k] == readings[..k] && pre[k] == readings[k];
    DriveStopsAt(tick, pre, k, false);
  }

  /** An interrupt while the loop is still going: after the start-up `Manual`,
      each successful reading sends the speed the curve chooses for it, failed
      readings send nothing, and the handler's `Auto` comes last. */
  lemma {:induction false} InterruptRevertsToAuto(safe: int, crit: int, mode: string, readings: seq<Option<int>>)
    requires safe > 0 && mode != Oneshot
    requires forall i | 0 <= i < |readings| :: readings[i].None? || readings[i].value < crit
    ensures MainLoop(safe, crit, mode, readings, true)
            == Outcome([Manual] + CurveSpeeds(safe, crit, Successful(readings)) + [Auto], Interrupted)
  {
    var tick := r => Tick(safe, crit, mode, r);
    forall i | 0 <= i < |readings| ensures tick(readings[i]).Continue? {
      if readings[i].Some? {
        CriticalTick(safe, crit, mode, readings[i].value);
      }
    }
    InterruptEndsInAuto(tick, readings);
    EmittedCurveSpeeds(safe, crit, mode, readings);
  }

  /** The successful readings' temperatures, in order. */
  function Successful(readings: seq<Option<int>>): (ts: seq<int>)
    ensures |ts| <= |readings|
    ensures |ts| == |readings| <==> forall i | 0 <= i < |readings| :: readings[i].Some?
    ensures forall k | 0 <= k < |ts| :: Some(ts[k]) in readings
    ensures forall i | 0 <= i < |readings| && readings[i].Some? :: readings[i].value in ts
    decreases |readings|
  {
    if |readings| == 0 then []
    else
      var rest := Successful(readings[1..]);
      assert forall i | 1 <= i < |readings| :: readings[i] == readings[1..][i - 1];
      match readings[0]
      case None => rest
      case Some(t) => [t] + rest
  }

  /** The speed the curve chooses for each temperature below CRIT_TEMP. */
  function CurveSpeeds(safe: int, crit: int, ts: seq<int>): seq<Command>
    requires safe > 0
    requires forall k | 0 <= k < |ts| :: ts[k] < crit
  {
    seq(|ts|, k requires 0 <= k < |ts| => Speed(DecideFixed(safe, crit, ts[k]).percent))
  }

  lemma CurveSpeedsCons(safe: int, crit: int, ts: seq<int>)
    requires safe > 0 && |ts| > 0
    requires forall k | 0 <= k < |ts| :: ts[k] < crit
    ensures CurveSpeeds(safe, crit, ts)
            == [Speed(DecideFixed(safe, crit, ts[0]).percent)] + CurveSpeeds(safe, crit, ts[1..])
  {
    var all, rest := CurveSpeeds(safe, crit, ts), CurveSpeeds(safe, crit, ts[1..]);
    assert forall k | 0 <= k < |rest| :: rest[k] == all[k + 1];
  }

  /** Going round the loop sends one curve speed per successful reading, in
      order. */
  lemma {:induction false} EmittedCurveSpeeds(safe: int, crit: int, mode: string, readings: seq<Option<int>>)
    requires safe > 0 && mode != Oneshot
    requires forall i | 0 <= i < |readings| :: readings[i].None? || readings[i].value < crit
    ensures Emitted(r => Tick(safe, crit, mode, r), readings) == CurveSpeeds(safe, crit, Successful(readings))
    decreases |readings|
  {
    if |readings| > 0 {
      var tick := r => Tick(safe, crit, mode, r);
      var tail := readings[1..];
      assert forall i | 0 <= i < |tail| :: tail[i] == readings[i + 1];
      EmittedCurveSpeeds(safe, crit, mode, tail);
      var rest := CurveSpeeds(safe, crit, Successful(tail));
      assert Emitted(tick, readings) == tick(readings[0]).cmds + rest;
      match readings[0]
      case None =>
        assert Successful(readings) == Successful(tail);
        assert tick(readings[0]).cmds + rest == rest;
      case Some(t) =>
        CriticalTick(safe, crit, mode, t);
        var ts := Successful(readings);
        assert ts == [t] + Successful(tail);
        CurveSpeedsCons(safe, crit, ts);
        assert tick(readings[0]).cmds == [Speed(DecideFixed(safe, crit, t).percent)];
    }
  }

  /** Scenario with the defaults SAFE_TEMP = 65 and CRIT_TEMP = 75: a failed
      reading then 40 degrees gives int(20 + 40 / 65 * 70) = 63 %; 70 degrees
      gives 100 %; in "oneshot" mode the loop leaves after the 63 %; a reading of
      80 hands back to automatic control. */
  lemma {:induction false} Scenarios()
    ensures MainLoop(65, 75, "continuous", [None, Some(40)], false) == Outcome([Manual, Speed(63)], Running)
    ensures MainLoop(65, 75, "continuous", [Some(70)], false) == Outcome([Manual, Speed(100)], Running)
    ensures MainLoop(65, 75, Oneshot, [Some(40), Some(70)], false) == Outcome([Manual, Speed(63)], Finished)
    ensures MainLoop(65, 75, "continuous", [Some(80), Some(40)], true) == Outcome([Manual, Auto], StoppedCritical)
  {
    RampTick(65, 75, "continuous", 40);
    RampTick(65, 75, Oneshot, 40);
  }
}

=== FILE: numeric.dfy ===
/** Integer helpers shared by the fan curve, the byte mapping and the sensor aggregation. */
module Numeric {

  function Abs(x: int): (a: nat)
    ensures a == x || a == -x
  {
    if x < 0 then -x else x
  }

  /** Python's two-argument `min`. */
  function Min2(a: int, b: int): (m: int)
    ensures m <= a && m <= b && (m == a || m == b)
  {
    if a <= b then a else b
  }

  /** Python's two-argument `max`. */
  function Max2(a: int, b: int): (m: int)
    ensures m >= a && m >= b && (m == a || m == b)
  {
    if a >= b then a else b
  }

  /** Python's `int(n / d)` for integers, computed exactly: the rational quotient
      truncated toward zero (Dafny's own `/` is Euclidean, so it differs for a
      negative numerator). */
  function TruncDiv(n: int, d: int): (q: int)
    requires d != 0
    ensures 0 <= q * d <= n || n <= q * d <= 0
    ensures Abs(n - q * d) < Abs(d)
  {
    var m := Abs(n) / Abs(d);
    DivisionBounds(Abs(n), Abs(d));
    SignedProduct(n, d, m);
    if (n >= 0) == (d > 0) then m else -m
  }

  /** The facts about Euclidean division on naturals that TruncDiv relies on. */
  lemma DivisionBounds(a: nat, b: nat)
    requires b > 0
    ensures 0 <= (a / b) * b <= a < (a / b) * b + b
  {
  }

  lemma SignedProduct(n: int, d: int, m: int)
    requires d != 0
    requires 0 <= m * Abs(d) <= Abs(n) < m * Abs(d) + Abs(d)
    ensures (n >= 0) == (d > 0) ==> 0 <= m * d <= n || n <= m * d <= 0
    ensures (n >= 0) == (d > 0) ==> Abs(n - m * d) < Abs(d)
    ensures (n >= 0) != (d > 0) ==> 0 <= -m * d <= n || n <= -m * d <= 0
    ensures (n >= 0) != (d > 0) ==> Abs(n - -m * d) < Abs(d)
  {
    if d > 0 {
      assert Abs(d) == d;
    } else {
      assert Abs(d) == -d;
      assert m * Abs(d) == -(m * d);
    }
  }

  /** Multiplying by a non-negative factor keeps the order. */
  lemma MulMonotone(x: int, y: int, k: int)
    requires x <= y && k >= 0
    ensures x * k <= y * k
  {
    assert y * k - x * k == (y - x) * k;
  }

  /** Floor division of naturals by a positive divisor never reverses the order. */
  lemma DivMonotone(a: nat, b: nat, d: int)
    requires a <= b && d > 0
    ensures a / d <= b / d
  {
    DivisionBounds(a, d);
    DivisionBounds(b, d);
    if a / d > b / d {
      MulMonotone(b / d + 1, a / d, d);
    }
  }

  /** Truncating division by a positive divisor never reverses the order of numerators. */
  lemma TruncDivMonotone(n1: int, n2: int, d: int)
    requires d > 0
    requires n1 <= n2
    ensures TruncDiv(n1, d) <= TruncDiv(n2, d)
  {
    if n1 >= 0 {
      DivMonotone(n1, n2, d);
    } else if n2 < 0 {
      DivMonotone(-n2, -n1, d);
    }
  }

  /** The largest element of a non-empty sequence, as Python's `max` returns it. */
  function Max(s: seq<int>): (m: int)
    requires |s| > 0
    ensures m in s
    ensures forall i | 0 <= i < |s| :: s[i] <= m
  {
    if |s| == 1 then s[0]
    else
      var rest := Max(s[1..]);
      if s[0] >= rest then s[0] else rest
  }
}

=== FILE: optional.dfy ===
/** The value-or-nothing type used wherever the controllers carry Python's `None`. */
module Optional {

  /** `None` stands for Python's `None`; `Some(v)` for a present value `v`. */
  datatype Option<+T> = None | Some(value: T)
}

=== FILE: sdr_reader.dfy ===
/** The sensor side of fancontrol.py: the output of `ipmitool sdr` as `run_ipmi`
    hands it over, and `get_max_temp`, which scrapes temperatures out of it. */
module SdrReader {
  import opened Optional
  import opened Numeric
  import opened SdrText

  /** What the ipmitool subprocess returned: exit status and standard output. */
  datatype IpmiResult = IpmiResult(returnCode: int, stdout: string)

  /** `run_ipmi`: `None` on a non-zero exit status, the stripped output otherwise. */
  function RunIpmi(res: IpmiResult): (out: Option<string>)
    ensures out.None? <==> res.returnCode != 0
    ensures out.Some? ==> (out.value == [] <==> forall i | 0 <= i < |res.stdout| :: IsSpace(res.stdout[i]))
    ensures out.Some? && out.value != [] ==> !IsSpace(out.value[0]) && !IsSpace(out.value[|out.value| - 1])
    ensures out.Some? ==> exists i | 0 <= i <= |res.stdout| :: MarginsAt(res.stdout, out.value, i)
  {
    if res.returnCode != 0 then None else Some(Strip(res.stdout))
  }

  /** The temperature one output line contributes, as written: the line must
      contain "degrees C", and its second-to-last token must be an integer. */
  function LineTemp(line: string): (r: Option<int>)
    ensures !Contains(line, Degrees) ==> r.None?
    ensures Contains(line, Degrees) ==>
              var ts := Tokens(line);
              |ts| >= 2 && (r.Some? <==> ParseInt(ts[|ts| - 2]).Some?) && (r.Some? ==> r == ParseInt(ts[|ts| - 2]))
  {
    if Contains(line, Degrees) then
      var ts := Tokens(line);
      DegreesLineHasTwoTokens(line);
      ParseInt(ts[|ts| - 2])
    else
      None
  }

  /** The `temps` list: what `parse` reads from each line, in line order, skipping
      the lines it reads nothing from. */
  function LineTemps(lines: seq<string>, parse: string -> Option<int>): (temps: seq<int>)
    ensures forall i | 0 <= i < |lines| && parse(lines[i]).Some? :: parse(lines[i]).value in temps
    ensures forall k | 0 <= k < |temps| :: exists i | 0 <= i < |lines| :: parse(lines[i]) == Some(temps[k])
    decreases |lines|
  {
    if |lines| == 0 then []
    else
      var rest := LineTemps(lines[1..], parse);
      assert forall i | 1 <= i < |lines| :: lines[i] == lines[1..][i - 1];
      match parse(lines[0])
      case None => rest
      case Some(t) => [t] + rest
  }

  /** The body of `get_max_temp` after `run_ipmi`, for a given way of reading one
      line: `None` for failed or empty output or when no line yields a
      temperature, otherwise the hottest line's temperature. */
  function ScanTemps(output: Option<string>, parse: string -> Option<int>): (r: Option<int>)
    ensures output.None? || output == Some([]) ==> r.None?
    ensures r.Some? ==>
              var lines := SplitLines(output.value);
              && (exists i | 0 <= i < |lines| :: parse(lines[i]) == r)
              && (forall i | 0 <= i < |lines| && parse(lines[i]).Some? :: parse(lines[i]).value <= r.value)
    ensures r.None? && output.Some? ==>
              var lines := SplitLines(output.value);
              forall i | 0 <= i < |lines| :: parse(lines[i]).None?
  {
    if output.None? || output.value == [] then None
    else
      var temps := LineTemps(SplitLines(output.value), parse);
      if |temps| == 0 then None else Some(Max(temps))
  }

  /** `get_max_temp` as written, reading each line with `LineTemp`. */
  function GetMaxTemp(output: Option<string>): (r: Option<int>)
    ensures output.None? || output == Some([]) ==> r.None?
    ensures r.Some? ==>
              var lines := SplitLines(output.value);
              && (exists i | 0 <= i < |lines| :: LineTemp(lines[i]) == r)
              && (forall i | 0 <= i < |lines| && LineTemp(lines[i]).Some? :: LineTemp(lines[i]).value <= r.value)
    ensures r.None? && output.Some? ==>
              var lines := SplitLines(output.value);
              forall i | 0 <= i < |lines| :: LineTemp(lines[i]).None?
  {
    ScanTemps(output, LineTemp)
  }

  /** A failed ipmitool call or an all-whitespace output gives no reading, however
      the lines are read. */
  lemma {:induction false} FailedSdrGivesNone(res: IpmiResult, parse: string -> Option<int>)
    requires res.returnCode != 0 || forall i | 0 <= i < |res.stdout| :: IsSpace(res.stdout[i])
    ensures ScanTemps(RunIpmi(res), parse) == None
  {
  }

  /** As written, a "degrees C" line whose second-to-last token is a printed
      integer reads back that integer. */
  lemma {:induction false} LineTempReadsSecondToLast(line: string, n: int)
    requires Contains(line, Degrees)
    requires |Tokens(line)| >= 2 && Tokens(line)[|Tokens(line)| - 2] == Show(n)
    ensures LineTemp(line) == Some(n)
  {
    ParseShow(n);
  }

  /** A line ending in "<value> degrees C" has "degrees" as its second-to-last
      token, which is not an integer: as written, such a line never contributes
      a temperature. */
  lemma {:induction false} TrailingDegreesIgnored(line: string)
    requires |Tokens(line)| >= 2
    requires Tokens(line)[|Tokens(line)| - 2] == "degrees"
    ensures LineTemp(line) == None
  {
    assert !IsDigit("degrees"[1]);
  }

  /** A temperature line in the column layout of `ipmitool sdr`:
      "<name> | <value> degrees C | <status>". */
  function ColumnLine(name: string, value: string, status: string): string
  {
    name + " | " + value + " degrees C | " + status
  }

  /** Where the pieces of a column-layout line sit. */
  lemma {:induction false} ColumnLineChars(name: string, value: string, status: string)
    ensures var s, a, b := ColumnLine(name, value, status), |name|, |name| + 3 + |value|;
      && |s| == b + 13 + |status|
      && s[..a] == name && s[a..a + 3] == " | " && s[a + 3..b] == value
      && s[b..b + 13] == " degrees C | " && s[b + 13..] == status
  {
    var s, a, b := ColumnLine(name, value, status), |name|, |name| + 3 + |value|;
    assert s == name + " | " + value + " degrees C | " + status;
  }

  /** The tokens of a column-layout line, for one-word name, value and status. */
  lemma {:induction false} ColumnLineTokens(name: string, value: string, status: string)
    requires IsWord(name) && IsWord(value) && IsWord(status)
    ensures Contains(ColumnLine(name, value, status), Degrees)
    ensures Tokens(ColumnLine(name, value, status)) == [name, "|", value, "degrees", "C", "|", status]
  {
    var s := ColumnLine(name, value, status);
    var a := |name|;
    var b := a + 3 + |value|;
    ColumnLineChars(name, value, status);
    var sep, unit := s[a..a + 3], s[b..b + 13];
    assert sep[0] == ' ' && sep[1..2] == "|" && sep[2] == ' ';
    assert unit[0] == ' ' && unit[8] == ' ' && unit[10] == ' ' && unit[12] == ' ';
    assert unit[1..8] == "degrees" && unit[9..10] == "C" && unit[11..12] == "|";
    assert s[a + 1..a + 2] == sep[1..2];
    assert s[b + 1..b + 8] == unit[1..8];
    assert s[b + 9..b + 10] == unit[9..10];
    assert s[b + 11..b + 12] == unit[11..12];
    assert OccursAt(s, Degrees, b + 1) by {
      assert s[b + 1..b + 10] == unit[1..10];
    }
    TokensOfColumns(s, name, value, status, a, b);
  }

  lemma {:induction false} TokensOfColumns(s: string, name: string, value: string, status: string, a: nat, b: nat)
    requires IsWord(name) && IsWord(value) && IsWord(status)
    requires a == |name| && b == a + 3 + |value| && |s| == b + 13 + |status|
    requires s[..a] == name && s[a + 3..b] == value && s[b + 13..] == status
    requires s[a] == ' ' && s[a + 1..a + 2] == "|" && s[a + 2] == ' '
    requires s[b] == ' ' && s[b + 1..b + 8] == "degrees" && s[b + 8] == ' '
    requires s[b + 9..b + 10] == "C" && s[b + 10] == ' ' && s[b + 11..b + 12] == "|" && s[b + 12] == ' '
    ensures Tokens(s) == [name, "|", value, "degrees", "C", "|", status]
  {
    FirstWord(s, name);
    BarValueTokens(s, value, status, a, b);
  }

  /** The tokens from the name's trailing space on: "|", value, then the rest. */
  lemma {:induction false} BarValueTokens(s: string, value: string, status: string, a: nat, b: nat)
    requires IsWord(value) && IsWord(status)
    requires b == a + 3 + |value| && |s| == b + 13 + |status|
    requires s[a + 3..b] == value && s[b + 13..] == status
    requires s[a] == ' ' && s[a + 1..a + 2] == "|" && s[a + 2] == ' '
    requires s[b] == ' ' && s[b + 1..b + 8] == "degrees" && s[b + 8] == ' '
    requires s[b + 9..b + 10] == "C" && s[b + 10] == ' ' && s[b + 11..b + 12] == "|" && s[b + 12] == ' '
    ensures TokensFrom(s, a) == ["|", value, "degrees", "C", "|", status]
  {
    assert IsWord("|");
    WordAfter(s, a, "|");
    ValueTokens(s, value, status, a, b);
  }

  /** The tokens from the bar's trailing space on: value, then the rest. */
  lemma {:induction false} ValueTokens(s: string, value: string, status: string, a: nat, b: nat)
    requires IsWord(value) && IsWord(status)
    requires b == a + 3 + |value| && |s| == b + 13 + |status|
    requires s[a + 3..b] == value && s[b + 13..] == status
    requires s[a + 2] == ' '
    requires s[b] == ' ' && s[b + 1..b + 8] == "degrees" && s[b + 8] == ' '
    requires s[b + 9..b + 10] == "C" && s[b + 10] == ' ' && s[b + 11..b + 12] == "|" && s[b + 12] == ' '
    ensures TokensFrom(s, a + 2) == [value, "degrees", "C", "|", status]
  {
    WordAfter(s, a + 2, value);
    UnitAndStatusTokens(s, b, status);
  }

  /** The tokens from the value's trailing space on: "degrees", "C", "|", status. */
  lemma {:induction false} UnitAndStatusTokens(s: string, b: nat, status: string)
    requires IsWord(status) && |s| == b + 13 + |status|
    requires s[b] == ' ' && s[b + 1..b + 8] == "degrees" && s[b + 8] == ' '
    requires s[b + 9..b + 10] == "C" && s[b + 10] == ' ' && s[b + 11..b + 12] == "|" && s[b + 12] == ' '
    requires s[b + 13..] == status
    ensures TokensFrom(s, b) == ["degrees", "C", "|", status]
  {
    DegreesToken(s, b);
    UnitTail(s, b, status);
  }

  lemma {:induction false} UnitTail(s: string, b: nat, status: string)
    requires IsWord(status) && |s| == b + 13 + |status|
    requires s[b + 8] == ' ' && s[b + 9..b + 10] == "C" && s[b + 10] == ' '
    requires s[b + 11..b + 12] == "|" && s[b + 12] == ' '
    requires s[b + 13..] == status
    ensures TokensFrom(s, b + 8) == ["C", "|", status]
  {
    assert IsWord("C");
    WordAfter(s, b + 8, "C");
    BarTail(s, b, status);
  }

  lemma {:induction false} BarTail(s: string, b: nat, status: string)
    requires IsWord(status) && |s| == b + 13 + |status|
    requires s[b + 10] == ' ' && s[b + 11..b + 12] == "|" && s[b + 12] == ' '
    requires s[b + 13..] == status
    ensures TokensFrom(s, b + 10) == ["|", status]
  {
    assert IsWord("|");
    WordAfter(s, b + 10, "|");
    StatusTail(s, b, status);
  }

  lemma {:induction false} StatusTail(s: string, b: nat, status: string)
    requires IsWord(status) && |s| == b + 13 + |status|
    requires s[b + 12] == ' ' && s[b + 13..] == status
    ensures TokensFrom(s, b + 12) == [status]
  {
    assert s[b + 13..b + 13 + |status|] == status;
    WordAfter(s, b + 12, status);
    NoMoreTokens(s, |s|);
  }

  lemma {:induction false} DegreesToken(s: string, b: nat)
    requires b + 9 <= |s|
    requires s[b] == ' ' && s[b + 1..b + 8] == "degrees" && s[b + 8] == ' '
    ensures TokensFrom(s, b) == ["degrees"] + TokensFrom(s, b + 8)
  {
    var w := "degrees";
    assert IsWord(w) by {
      assert forall x | 0 <= x < 7 :: !IsSpace(w[x]);
    }
    WordAfter(s, b, w);
  }

  /** In that layout the second-to-last token is the "|" separator, never an
      integer: as written, no such line contributes a temperature. */
  lemma {:induction false} ColumnLineIgnored(name: string, n: int, status: string)
    requires IsWord(name) && IsWord(status)
    ensures LineTemp(ColumnLine(name, Show(n), status)) == None
  {
    ShowIsWord(n);
    ColumnLineTokens(name, Show(n), status);
    assert !IsDigit("|"[0]);
  }

  /** Index of the first "degrees" token, if any. */
  function FindDegrees(ts: seq<string>): (k: Option<nat>)
    ensures k.Some? ==> k.value < |ts| && ts[k.value] == "degrees"
    ensures k.Some? ==> forall j | 0 <= j < k.value :: ts[j] != "degrees"
    ensures k.None? ==> forall j | 0 <= j < |ts| :: ts[j] != "degrees"
    decreases |ts|
  {
    if |ts| == 0 then None
    else if ts[0] == "degrees" then Some(0)
    else
      match FindDegrees(ts[1..])
      case None => None
      case Some(k) => Some(k + 1)
  }

  /** `FindDegrees` finds exactly the first "degrees" token. */
  lemma {:induction false} FirstDegreesAt(ts: seq<string>, k: nat)
    requires k < |ts| && ts[k] == "degrees"
    requires forall j | 0 <= j < k :: ts[j] != "degrees"
    ensures FindDegrees(ts) == Some(k)
    decreases k
  {
    if k > 0 {
      assert forall j | 0 <= j < k - 1 :: ts[1..][j] == ts[j + 1];
      FirstDegreesAt(ts[1..], k - 1);
    }
  }

  /** The temperature one line contributes, corrected: the token just before the
      "degrees" of "degrees C", which is where ipmitool prints the value. */
  function LineTempFixed(line: string): (r: Option<int>)
    ensures !Contains(line, Degrees) ==> r.None?
    ensures r.Some? ==>
              var ts := Tokens(line);
              exists k | 1 <= k < |ts| :: && ts[k] == "degrees"
                                          && (forall j | 0 <= j < k :: ts[j] != "degrees")
                                          && ParseInt(ts[k - 1]) == r
  {
    if Contains(line, Degrees) then
      var ts := Tokens(line);
      match FindDegrees(ts)
      case Some(k) => if k >= 1 then ParseInt(ts[k - 1]) else None
      case None => None
    else
      None
  }

  /** Corrected, a line whose first "degrees" token follows the printed value
      reads back that value, whatever columns surround it. */
  lemma {:induction false} FixedReadsValue(line: string, n: int)
    requires Contains(line, Degrees)
    requires FindDegrees(Tokens(line)).Some?
    requires var k := FindDegrees(Tokens(line)).value; k >= 1 && Tokens(line)[k - 1] == Show(n)
    ensures LineTempFixed(line) == Some(n)
  {
    ParseShow(n);
  }

  /** Corrected, the column-layout line reads back the printed value. */
  lemma {:induction false} ColumnLineFixed(name: string, n: int, status: string)
    requires IsWord(name) && IsWord(status) && name != "degrees"
    ensures LineTempFixed(ColumnLine(name, Show(n), status)) == Some(n)
  {
    ShowIsWord(n);
    ColumnLineTokens(name, Show(n), status);
    var ts := Tokens(ColumnLine(name, Show(n), status));
    assert Show(n) != "degrees" by {
      ParseShow(n);
    }
    assert ts[1] != "degrees";
    FirstDegreesAt(ts, 3);
    ParseShow(n);
  }

  /** `get_max_temp` corrected, reading each line with `LineTempFixed`. */
  function GetMaxTempFixed(output: Option<string>): (r: Option<int>)
    ensures output.None? || output == Some([]) ==> r.None?
    ensures r.Some? ==>
              var lines := SplitLines(output.value);
              && (exists i | 0 <= i < |lines| :: LineTempFixed(lines[i]) == r)
              && (forall i | 0 <= i < |lines| && LineTempFixed(lines[i]).Some? :: LineTempFixed(lines[i]).value <= r.value)
    ensures r.None? && output.Some? ==>
              var lines := SplitLines(output.value);
              forall i | 0 <= i < |lines| :: LineTempFixed(lines[i]).None?
  {
    ScanTemps(output, LineTempFixed)
  }

  /** One temperature row of an `ipmitool sdr` table. */
  datatype SdrRow = SdrRow(name: string, value: int, status: string)

  /** A row whose name and status are single words, and whose name is not itself
      "degrees". */
  predicate PlainRow(r: SdrRow) {
    IsWord(r.name) && IsWord(r.status) && r.name != "degrees"
  }

  /** The line ipmitool prints for a row. */
  function RowLine(r: SdrRow): string {
    ColumnLine(r.name, Show(r.value), r.status)
  }

  function TableLines(rows: seq<SdrRow>): seq<string>
  {
    seq(|rows|, i requires 0 <= i < |rows| => RowLine(rows[i]))
  }

  /** A table has one line per row, the row's own line. */
  lemma TableLinesAt(rows: seq<SdrRow>)
    ensures |TableLines(rows)| == |rows|
    ensures forall i | 0 <= i < |rows| :: TableLines(rows)[i] == RowLine(rows[i])
  {
  }

  function TableValues(rows: seq<SdrRow>): seq<int>
  {
    seq(|rows|, i requires 0 <= i < |rows| => rows[i].value)
  }

  /** A row's line holds no line break, so a table splits back into its rows. */
  lemma {:induction false} RowLineNoBreaks(r: SdrRow)
    requires PlainRow(r)
    ensures NoBreaks(RowLine(r))
  {
    var value := Show(r.value);
    ShowIsWord(r.value);
    WordNoBreaks(r.name);
    WordNoBreaks(value);
    WordNoBreaks(r.status);
    var sep, unit := " | ", " degrees C | ";
    assert NoBreaks(sep) && NoBreaks(unit);
    ConcatNoBreaks(r.name, sep);
    ConcatNoBreaks(r.name + sep, value);
    ConcatNoBreaks(r.name + sep + value, unit);
    ConcatNoBreaks(r.name + sep + value + unit, r.status);
  }

  /** A word holds no whitespace, so no line break. */
  lemma {:induction false} WordNoBreaks(w: string)
    requires IsWord(w)
    ensures NoBreaks(w)
  {
    assert forall i | 0 <= i < |w| :: !IsSpace(w[i]);
  }

  lemma {:induction false} ConcatNoBreaks(a: string, b: string)
    requires NoBreaks(a) && NoBreaks(b)
    ensures NoBreaks(a + b)
  {
    assert forall i | 0 <= i < |a + b| :: (a + b)[i] == if i < |a| then a[i] else b[i - |a|];
  }

  /** The discrepancy on a whole table: for any non-empty `ipmitool sdr` output in
      the column layout, `get_max_temp` as written reads nothing, so the loop
      never gets a temperature, while the corrected reading finds the hottest
      row's value. */
  lemma {:induction false} ColumnTable(rows: seq<SdrRow>)
    requires |rows| > 0
    requires forall i | 0 <= i < |rows| :: PlainRow(rows[i])
    ensures GetMaxTemp(Some(JoinLines(TableLines(rows)))) == None
    ensures GetMaxTempFixed(Some(JoinLines(TableLines(rows)))) == Some(Max(TableValues(rows)))
  {
    TableSplits(rows);
    TableLineTemps(rows);
    TableReadFixed(rows);
  }

  lemma {:induction false} TableReadFixed(rows: seq<SdrRow>)
    requires |rows| > 0
    requires SplitLines(JoinLines(TableLines(rows))) == TableLines(rows)
    requires JoinLines(TableLines(rows)) != []
    requires forall i | 0 <= i < |rows| :: LineTempFixed(TableLines(rows)[i]) == Some(TableValues(rows)[i])
    ensures GetMaxTempFixed(Some(JoinLines(TableLines(rows)))) == Some(Max(TableValues(rows)))
  {
    ScanEveryLine(JoinLines(TableLines(rows)), LineTempFixed, TableValues(rows));
  }

  /** When every line reads a value, the scan returns the largest of them. */
  lemma {:induction false} ScanEveryLine(out: string, parse: string -> Option<int>, vs: seq<int>)
    requires out != [] && |vs| > 0 && |SplitLines(out)| == |vs|
    requires forall i | 0 <= i < |vs| :: parse(SplitLines(out)[i]) == Some(vs[i])
    ensures ScanTemps(Some(out), parse).Some? && ScanTemps(Some(out), parse).value == Max(vs)
  {
    var lines := SplitLines(out);
    var r := ScanTemps(Some(out), parse);
    assert parse(lines[0]).Some?;
    assert r.Some?;
    assert exists i | 0 <= i < |lines| :: parse(lines[i]) == r;
    var i :| 0 <= i < |lines| && parse(lines[i]) == r;
    var m := Max(vs);
    assert m in vs;
    var j :| 0 <= j < |vs| && vs[j] == m;
    assert parse(lines[j]) == Some(m);
    assert m <= r.value;
    assert parse(lines[i]) == Some(vs[i]);
    assert r.value == vs[i] <= m;
  }

  /** A table's output is not empty and splits back into the rows' lines. */
  lemma {:induction false} TableSplits(rows: seq<SdrRow>)
    requires |rows| > 0
    requires forall i | 0 <= i < |rows| :: PlainRow(rows[i])
    ensures JoinLines(TableLines(rows)) != []
    ensures SplitLines(JoinLines(TableLines(rows))) == TableLines(rows)
  {
    var lines := TableLines(rows);
    forall k | 0 <= k < |lines| ensures NoBreaks(lines[k]) {
      RowLineNoBreaks(rows[k]);
    }
    assert lines[|lines| - 1] != [] by {
      assert |lines[|lines| - 1]| > |rows[|rows| - 1].name|;
    }
    SplitJoin(lines);
  }

  /** Line by line: as written each row's line reads nothing, corrected it reads
      the row's value. */
  lemma {:induction false} TableLineTemps(rows: seq<SdrRow>)
    requires forall i | 0 <= i < |rows| :: PlainRow(rows[i])
    ensures forall i | 0 <= i < |rows| :: LineTemp(TableLines(rows)[i]) == None
    ensures forall i | 0 <= i < |rows| :: LineTempFixed(TableLines(rows)[i]) == Some(TableValues(rows)[i])
  {
    forall i | 0 <= i < |rows|
      ensures LineTemp(RowLine(rows[i])) == None && LineTempFixed(RowLine(rows[i])) == Some(rows[i].value)
    {
      ColumnLineIgnored(rows[i].name, rows[i].value, rows[i].status);
      ColumnLineFixed(rows[i].name, rows[i].value, rows[i].status);
    }
  }

  /** What ipmitool prints for a table: the rows' lines, each ending in "\n". */
  function TableOutput(rows: seq<SdrRow>): string {
    JoinLines(TableLines(rows)) + "\n"
  }

  /** `run_ipmi` hands a table's output over as its lines joined by "\n",
      without the final line break. */
  lemma {:induction false} TableOutputRun(rows: seq<SdrRow>)
    requires |rows| > 0
    requires forall i | 0 <= i < |rows| :: PlainRow(rows[i])
    ensures RunIpmi(IpmiResult(0, TableOutput(rows))) == Some(JoinLines(TableLines(rows)))
  {
    var lines := TableLines(rows);
    TableLinesAt(rows);
    var first, last := rows[0], rows[|rows| - 1];
    ColumnLineChars(first.name, Show(first.value), first.status);
    assert lines[0][0] == first.name[0] by {
      assert lines[0][..|first.name|] == first.name;
    }
    ColumnLineChars(last.name, Show(last.value), last.status);
    var l := lines[|lines| - 1];
    assert l[|l| - 1] == last.status[|last.status| - 1] by {
      var b := |last.name| + 3 + |Show(last.value)|;
      assert l[b + 13..] == last.status;
    }
    JoinStart(lines);
    JoinEnd(lines);
    StripTrailing(JoinLines(lines), "\n");
  }

  /** The discrepancy from the subprocess on: the table ipmitool prints reads as
      no temperature as written, and as the hottest row corrected. */
  lemma {:induction false} ColumnTableOutput(rows: seq<SdrRow>)
    requires |rows| > 0
    requires forall i | 0 <= i < |rows| :: PlainRow(rows[i])
    ensures GetMaxTemp(RunIpmi(IpmiResult(0, TableOutput(rows)))) == None
    ensures GetMaxTempFixed(RunIpmi(IpmiResult(0, TableOutput(rows)))) == Some(Max(TableValues(rows)))
  {
    TableOutputRun(rows);
    ColumnTable(rows);
  }
}

=== FILE: sdr_text.dfy ===
/** The pieces of Python's string handling that `get_max_temp` and `run_ipmi` rely
    on: `str.isspace`, `str.strip`, `str.splitlines`, `str.split()`, the
    `in` test for substrings, and `int()` on a decimal token. */
module SdrText {
  import opened Optional

  /** `c.isspace()`: the characters Python treats as whitespace. */
  predicate IsSpace(c: char) {
    var n := c as int;
    (9 <= n <= 13) || (0x1c <= n <= 0x20) || n == 0x85 || n == 0xa0 || n == 0x1680
    || (0x2000 <= n <= 0x200a) || n == 0x2028 || n == 0x2029 || n == 0x202f
    || n == 0x205f || n == 0x3000
  }

  /** The characters at which `str.splitlines` ends a line. */
  predicate IsLineBreak(c: char) {
    var n := c as int;
    (10 <= n <= 13) || (0x1c <= n <= 0x1e) || n == 0x85 || n == 0x2028 || n == 0x2029
  }

  /** `pat` occurs in `s` starting at index `i`. */
  predicate OccursAt(s: string, pat: string, i: int) {
    0 <= i <= |s| - |pat| && s[i..i + |pat|] == pat
  }

  /** `pat in s`. */
  predicate Contains(s: string, pat: string) {
    exists i | 0 <= i <= |s| :: OccursAt(s, pat, i)
  }

  /** Number of leading whitespace characters. */
  function LeadingSpaces(s: string): (n: nat)
    ensures n <= |s|
    ensures forall i | 0 <= i < n :: IsSpace(s[i])
    ensures n < |s| ==> !IsSpace(s[n])
    decreases |s|
  {
    if |s| == 0 || !IsSpace(s[0]) then 0 else 1 + LeadingSpaces(s[1..])
  }

  /** Number of trailing whitespace characters. */
  function TrailingSpaces(s: string): (n: nat)
    ensures n <= |s|
    ensures forall i | |s| - n <= i < |s| :: IsSpace(s[i])
    ensures n < |s| ==> !IsSpace(s[|s| - n - 1])
    decreases |s|
  {
    if |s| == 0 || !IsSpace(s[|s| - 1]) then 0 else 1 + TrailingSpaces(s[..|s| - 1])
  }

  /** `t` sits in `s` at index `i` with nothing but whitespace before and after it. */
  predicate MarginsAt(s: string, t: string, i: int) {
    && OccursAt(s, t, i)
    && (forall x | 0 <= x < i :: IsSpace(s[x]))
    && (forall x | i + |t| <= x < |s| :: IsSpace(s[x]))
  }

  /** `s.strip()`: `s` with its leading and trailing whitespace removed, and
      nothing else. */
  function Strip(s: string): (t: string)
    ensures |t| <= |s|
    ensures t == [] <==> forall i | 0 <= i < |s| :: IsSpace(s[i])
    ensures t != [] ==> !IsSpace(t[0]) && !IsSpace(t[|t| - 1])
    ensures exists i | 0 <= i <= |s| :: MarginsAt(s, t, i)
  {
    var front := LeadingSpaces(s);
    if front == |s| then
      assert MarginsAt(s, [], 0);
      []
    else
      var rest := s[front..];
      var back := TrailingSpaces(rest);
      var t := rest[..|rest| - back];
      assert back < |rest|;
      assert s[front..front + |t|] == t;
      assert forall x | front + |t| <= x < |s| :: s[x] == rest[x - front];
      assert MarginsAt(s, t, front);
      t
  }

  /** Text that starts and ends with non-whitespace, followed only by whitespace,
      strips back to itself. */
  lemma {:induction false} StripTrailing(u: string, tail: string)
    requires u != [] && !IsSpace(u[0]) && !IsSpace(u[|u| - 1])
    requires forall x | 0 <= x < |tail| :: IsSpace(tail[x])
    ensures Strip(u + tail) == u
  {
    var s := u + tail;
    var t := Strip(s);
    assert s[0] == u[0];
    var i :| 0 <= i <= |s| && MarginsAt(s, t, i);
    assert i == 0;
    assert t != [];
    assert s[|u| - 1] == u[|u| - 1];
    assert |t| >= |u|;
    assert t[|t| - 1] == s[|t| - 1];
    assert |t| == |u|;
    assert t == s[..|u|] == u;
  }

  /** First index at or after `i` that is not whitespace, or the length. */
  function SkipSpaces(s: string, i: nat): (j: nat)
    requires i <= |s|
    ensures i <= j <= |s|
    ensures forall x | i <= x < j :: IsSpace(s[x])
    ensures j < |s| ==> !IsSpace(s[j])
    decreases |s| - i
  {
    if i == |s| || !IsSpace(s[i]) then i else SkipSpaces(s, i + 1)
  }

  /** First index at or after `i` that is whitespace, or the length. */
  function WordEnd(s: string, i: nat): (j: nat)
    requires i <= |s|
    ensures i <= j <= |s|
    ensures forall x | i <= x < j :: !IsSpace(s[x])
    ensures j < |s| ==> IsSpace(s[j])
    decreases |s| - i
  {
    if i == |s| || IsSpace(s[i]) then i else WordEnd(s, i + 1)
  }

  /** The tokens of `s` from index `i` on. */
  function TokensFrom(s: string, i: nat): seq<string>
    requires i <= |s|
    decreases |s| - i
  {
    var j := SkipSpaces(s, i);
    if j == |s| then []
    else
      var k := WordEnd(s, j);
      [s[j..k]] + TokensFrom(s, k)
  }

  /** `s.split()`: the maximal runs of non-whitespace characters, in order. */
  function Tokens(s: string): (ts: seq<string>)
    ensures forall k | 0 <= k < |ts| :: IsWord(ts[k])
    ensures ts == [] <==> forall x | 0 <= x < |s| :: IsSpace(s[x])
  {
    TokensAreWords(s, 0);
    TokensFrom(s, 0)
  }

  /** Every token is a non-empty run of non-whitespace characters. */
  lemma {:induction false} TokensAreWords(s: string, i: nat)
    requires i <= |s|
    ensures forall k | 0 <= k < |TokensFrom(s, i)| :: |TokensFrom(s, i)[k]| > 0
    ensures forall k, x | 0 <= k < |TokensFrom(s, i)| && 0 <= x < |TokensFrom(s, i)[k]| :: !IsSpace(TokensFrom(s, i)[k][x])
    decreases |s| - i
  {
    var j := SkipSpaces(s, i);
    if j < |s| {
      var k := WordEnd(s, j);
      TokensAreWords(s, k);
    }
  }

  /** One step of `split()`: skip the whitespace in [i, j), take the word in
      [j, k) that ends at whitespace or at the end of the string. */
  lemma {:induction false} NextToken(s: string, i: nat, j: nat, k: nat)
    requires i <= j < k <= |s|
    requires forall x | i <= x < j :: IsSpace(s[x])
    requires forall x | j <= x < k :: !IsSpace(s[x])
    requires k < |s| ==> IsSpace(s[k])
    ensures TokensFrom(s, i) == [s[j..k]] + TokensFrom(s, k)
  {
    var j' := SkipSpaces(s, i);
    assert !IsSpace(s[j]);
    assert j' <= j;
    assert j' < |s| && !IsSpace(s[j']);
    assert j' == j;
    var k' := WordEnd(s, j);
    assert k == |s| || IsSpace(s[k]);
    assert k' <= k;
    assert k' < |s| ==> IsSpace(s[k']);
    assert k' == k;
  }

  /** Nothing but whitespace from `i` on: no more tokens. */
  lemma {:induction false} NoMoreTokens(s: string, i: nat)
    requires i <= |s|
    requires forall x | i <= x < |s| :: IsSpace(s[x])
    ensures TokensFrom(s, i) == []
  {
  }

  /** A non-empty run of non-whitespace characters. */
  predicate IsWord(w: string) {
    |w| > 0 && forall i | 0 <= i < |w| :: !IsSpace(w[i])
  }

  /** The first token is the word `w` that opens `s`. */
  lemma {:induction false} FirstWord(s: string, w: string)
    requires IsWord(w) && |w| <= |s| && s[..|w|] == w
    requires |w| < |s| ==> IsSpace(s[|w|])
    ensures TokensFrom(s, 0) == [w] + TokensFrom(s, |w|)
  {
    assert forall x | 0 <= x < |w| :: s[x] == w[x];
    NextToken(s, 0, 0, |w|);
  }

  /** After the whitespace at `i`, the next token is the word `w` that follows it. */
  lemma {:induction false} WordAfter(s: string, i: nat, w: string)
    requires IsWord(w) && i + 1 + |w| <= |s| && IsSpace(s[i])
    requires s[i + 1..i + 1 + |w|] == w
    requires i + 1 + |w| < |s| ==> IsSpace(s[i + 1 + |w|])
    ensures TokensFrom(s, i) == [w] + TokensFrom(s, i + 1 + |w|)
  {
    SliceOfWord(s, i + 1, w);
    NextToken(s, i, i + 1, i + 1 + |w|);
  }

  /** A word found in `s` at `i` puts non-whitespace at each of its positions. */
  lemma {:induction false} SliceOfWord(s: string, i: nat, w: string)
    requires IsWord(w) && i + |w| <= |s| && s[i..i + |w|] == w
    ensures forall x | i <= x < i + |w| :: !IsSpace(s[x])
  {
    assert forall x | i <= x < i + |w| :: s[x] == w[x - i];
  }

  /** Non-whitespace at or after `i` means at least one more token. */
  lemma {:induction false} SomeToken(s: string, i: nat, l: int)
    requires i <= l < |s| && !IsSpace(s[l])
    ensures |TokensFrom(s, i)| >= 1
  {
  }

  /** Non-whitespace, then whitespace, then non-whitespace again: two tokens. */
  lemma {:induction false} TwoTokens(s: string, j: int, k: int, l: int)
    requires 0 <= j < k < l < |s|
    requires !IsSpace(s[j]) && IsSpace(s[k]) && !IsSpace(s[l])
    ensures |Tokens(s)| >= 2
  {
    var j0 := SkipSpaces(s, 0);
    assert j0 <= j;
    var k0 := WordEnd(s, j0);
    assert k0 <= k;
    SomeToken(s, k0, l);
  }

  /** The text every temperature line of `ipmitool sdr` carries. */
  const Degrees: string := "degrees C"

  /** A line containing "degrees C" splits into at least two tokens, so taking the
      second-to-last token cannot fail on the index. */
  lemma {:induction false} DegreesLineHasTwoTokens(line: string)
    requires Contains(line, Degrees)
    ensures |Tokens(line)| >= 2
  {
    var i :| 0 <= i <= |line| && OccursAt(line, Degrees, i);
    assert line[i + 6] == 's' && line[i + 7] == ' ' && line[i + 8] == 'C' by {
      assert line[i..i + |Degrees|][6] == 's';
      assert line[i..i + |Degrees|][7] == ' ';
      assert line[i..i + |Degrees|][8] == 'C';
    }
    TwoTokens(line, i + 6, i + 7, i + 8);
  }

  /** Index of the first line break, or the length if there is none. */
  function FirstBreak(s: string): (k: nat)
    ensures k <= |s|
    ensures forall i | 0 <= i < k :: !IsLineBreak(s[i])
    ensures k < |s| ==> IsLineBreak(s[k])
    decreases |s|
  {
    if |s| == 0 || IsLineBreak(s[0]) then 0 else 1 + FirstBreak(s[1..])
  }

  predicate NoBreaks(s: string) {
    forall i | 0 <= i < |s| :: !IsLineBreak(s[i])
  }

  /** `s.splitlines()`: lines without their terminators; "\r\n" ends one line,
      and a final terminator does not start an empty last line. */
  function SplitLines(s: string): (ls: seq<string>)
    ensures forall k | 0 <= k < |ls| :: NoBreaks(ls[k])
    decreases |s|
  {
    if |s| == 0 then []
    else
      var k := FirstBreak(s);
      if k == |s| then [s]
      else
        var next := if s[k] == '\r' && k + 1 < |s| && s[k + 1] == '\n' then k + 2 else k + 1;
        [s[..k]] + SplitLines(s[next..])
  }

  /** Lines joined with "\n". */
  function JoinLines(ls: seq<string>): string
    decreases |ls|
  {
    if |ls| == 0 then []
    else if |ls| == 1 then ls[0]
    else ls[0] + "\n" + JoinLines(ls[1..])
  }

  /** Joined lines start with the first line's first character. */
  lemma JoinStart(ls: seq<string>)
    requires |ls| > 0 && ls[0] != []
    ensures JoinLines(ls) != [] && JoinLines(ls)[0] == ls[0][0]
  {
  }

  /** Joined lines end with the last line's last character. */
  lemma {:induction false} JoinEnd(ls: seq<string>)
    requires |ls| > 0 && ls[|ls| - 1] != []
    ensures JoinLines(ls) != []
    ensures JoinLines(ls)[|JoinLines(ls)| - 1] == ls[|ls| - 1][|ls[|ls| - 1]| - 1]
    decreases |ls|
  {
    if |ls| > 1 {
      assert ls[1..][|ls[1..]| - 1] == ls[|ls| - 1];
      JoinEnd(ls[1..]);
      var rest := JoinLines(ls[1..]);
      var s := ls[0] + "\n" + rest;
      assert JoinLines(ls) == s;
      assert s[|s| - 1] == rest[|rest| - 1];
    }
  }

  /** Splitting lines joined with "\n" gives the lines back, as long as none holds
      a break and the last is not empty. */
  lemma {:induction false} SplitJoin(ls: seq<string>)
    requires forall k | 0 <= k < |ls| :: NoBreaks(ls[k])
    requires |ls| > 0 ==> ls[|ls| - 1] != []
    ensures SplitLines(JoinLines(ls)) == ls
    decreases |ls|
  {
    if |ls| == 1 {
      assert FirstBreak(ls[0]) == |ls[0]|;
    } else if |ls| > 1 {
      var s := JoinLines(ls);
      JoinedHead(ls[0], JoinLines(ls[1..]));
      assert s == ls[0] + "\n" + JoinLines(ls[1..]);
      SplitJoin(ls[1..]);
    }
  }

  /** A line followed by "\n" and more text: the first line is that line, and
      splitting resumes right after the "\n". */
  lemma {:induction false} JoinedHead(head: string, tail: string)
    requires NoBreaks(head)
    ensures var s := head + "\n" + tail;
      && FirstBreak(s) == |head| && s[|head|] == '\n'
      && s[..|head|] == head && s[|head| + 1..] == tail
  {
    var s := head + "\n" + tail;
    assert s[|head|] == '\n';
    assert forall i | 0 <= i < |head| :: s[i] == head[i];
    assert s[..|head|] == head;
    assert s[|head| + 1..] == tail;
  }

  predicate IsDigit(c: char) {
    '0' <= c <= '9'
  }

  predicate AllDigits(s: string) {
    forall i | 0 <= i < |s| :: IsDigit(s[i])
  }

  /** The value of a string of decimal digits. */
  function DigitsValue(s: string): nat
    requires AllDigits(s)
    decreases |s|
  {
    if |s| == 0 then 0
    else DigitsValue(s[..|s| - 1]) * 10 + (s[|s| - 1] as int - '0' as int)
  }

  /** `int(token)` for a whitespace-free token: an optional sign, then one or more
      ASCII digits; anything else is a ValueError, here `None`. */
  function ParseInt(s: string): (r: Option<int>)
    ensures r.Some? <==> (|s| > 0 && AllDigits(s)) || (|s| > 1 && (s[0] == '+' || s[0] == '-') && AllDigits(s[1..]))
    ensures (exists i | 0 < i < |s| :: !IsDigit(s[i])) ==> r.None?
  {
    if |s| > 1 && (s[0] == '+' || s[0] == '-') && AllDigits(s[1..]) then
      var v: int := DigitsValue(s[1..]);
      Some(if s[0] == '-' then -v else v)
    else if |s| > 0 && AllDigits(s) then
      Some(DigitsValue(s))
    else
      None
  }

  /** The decimal text of a natural number, most significant digit first. */
  function ShowNat(n: nat): (s: string)
    ensures |s| > 0 && AllDigits(s)
    ensures DigitsValue(s) == n
  {
    if n < 10 then ['0' + n as char]
    else
      var s := ShowNat(n / 10) + ['0' + (n % 10) as char];
      assert s[..|s| - 1] == ShowNat(n / 10);
      s
  }

  /** The decimal text of an integer, with a leading '-' when negative. */
  function Show(n: int): string
  {
    if n < 0 then "-" + ShowNat(-n) else ShowNat(n)
  }

  /** The decimal text of an integer is a single word. */
  lemma {:induction false} ShowIsWord(n: int)
    ensures IsWord(Show(n))
  {
    var s := Show(n);
    if n < 0 {
      assert s == "-" + ShowNat(-n);
      assert forall i | 1 <= i < |s| :: s[i] == ShowNat(-n)[i - 1];
    }
  }

  /** `int(str(n)) == n`: reading back what a decimal print wrote. */
  lemma {:induction false} ParseShow(n: int)
    ensures ParseInt(Show(n)) == Some(n)
  {
    if n < 0 {
      var s := Show(n);
      assert s[1..] == ShowNat(-n);
    }
  }
}

=== FILE: snmp_controller.dfy ===
/** The configurable controller of fan_control.py: SNMP readings of named sensors,
    the configurable curve, and the loop of `main` with its KeyboardInterrupt
    handler. The SNMP query itself is not modelled; each tick's readings are an
    input, `None` where `snmp_get` failed. */
module SnmpController {
  import opened Optional
  import opened Numeric
  import opened Commands
  import opened FanCurve
  import opened ControlLoop

  /** One entry of the `temps` dictionary: sensor name and reading. */
  datatype SensorReading = SensorReading(name: string, value: Option<int>)

  /** The readings that did not fail, in sensor order. */
  function ValidTemps(rs: seq<SensorReading>): (v: seq<int>)
    ensures forall i | 0 <= i < |rs| && rs[i].value.Some? :: rs[i].value.value in v
    ensures forall k | 0 <= k < |v| :: exists i | 0 <= i < |rs| :: rs[i].value == Some(v[k])
  {
    if |rs| == 0 then []
    else
      var rest := ValidTemps(rs[1..]);
      assert forall i | 1 <= i < |rs| :: rs[i] == rs[1..][i - 1];
      match rs[0].value
      case None => rest
      case Some(t) => [t] + rest
  }

  /** `max(valid_temps) if valid_temps else 0`. */
  function MaxTemp(rs: seq<SensorReading>): (m: int)
    ensures forall i | 0 <= i < |rs| && rs[i].value.Some? :: rs[i].value.value <= m
    ensures (exists i | 0 <= i < |rs| :: rs[i].value.Some?) ==> exists i | 0 <= i < |rs| :: rs[i].value == Some(m)
    ensures (forall i | 0 <= i < |rs| :: rs[i].value.None?) ==> m == 0
  {
    var v := ValidTemps(rs);
    if |v| == 0 then 0
    else
      Max(v)
  }

  /** One pass of the `while True` body: aggregate, then revert and break on a
      critical temperature, or set the duty cycle the curve chooses for the
      hottest reading. A zero SAFE_TEMP below it raises ZeroDivisionError. */
  function Tick(cfg: Config, rs: seq<SensorReading>): (s: Step)
    ensures Disciplined(s)
    ensures s == Stop([Auto], StoppedCritical) <==> MaxTemp(rs) >= cfg.critTemp
    ensures s == Stop([], Crashed) <==> MaxTemp(rs) < cfg.critTemp && MaxTemp(rs) < cfg.safeTemp && cfg.safeTemp == 0
    ensures s.Continue? <==> MaxTemp(rs) < cfg.critTemp && !(MaxTemp(rs) < cfg.safeTemp && cfg.safeTemp == 0)
    ensures s.Continue? ==> s.cmds == [Speed(Decide(cfg, MaxTemp(rs)).percent)]
  {
    match Decide(cfg, MaxTemp(rs))
    case Critical => Stop([Auto], StoppedCritical)
    case DivisionByZero => Stop([], Crashed)
    case Duty(p) => Continue([Speed(p)])
  }

  /** `main` with its KeyboardInterrupt handler, over the readings of successive
      ticks and whether an interrupt arrives after the last of them. The trace
      opens with the single `Manual` of start-up, `Auto` comes only last, and
      the run never finishes on its own. */
  function Main(cfg: Config, ticks: seq<seq<SensorReading>>, interrupted: bool): (o: Outcome)
    ensures |o.trace| > 0 && o.trace[0] == Manual
    ensures Manual !in o.trace[1..]
    ensures WellFormed(Outcome(o.trace[1..], o.status))
    ensures o.status != Finished
  {
    DriveNeverFinishes(cfg, ticks, interrupted);
    Run(rs => Tick(cfg, rs), ticks, interrupted)
  }

  /** The script has no single-shot mode: its loop never finishes on its own. */
  lemma {:induction false} DriveNeverFinishes(cfg: Config, ticks: seq<seq<SensorReading>>, interrupted: bool)
    ensures Drive(rs => Tick(cfg, rs), ticks, interrupted).status != Finished
    decreases |ticks|
  {
    if |ticks| > 0 {
      DriveNeverFinishes(cfg, ticks[1..], interrupted);
    }
  }

  /** At or above CRIT_TEMP a tick sends exactly `Auto` and leaves the loop,
      with no speed command; below it the tick goes round again. */
  lemma CriticalTick(cfg: Config, rs: seq<SensorReading>)
    requires cfg.safeTemp > 0
    ensures MaxTemp(rs) >= cfg.critTemp <==> Tick(cfg, rs) == Stop([Auto], StoppedCritical)
    ensures MaxTemp(rs) < cfg.critTemp <==> Tick(cfg, rs).Continue?
  {
  }

  /** Between SAFE_TEMP and CRIT_TEMP a tick commands exactly 100 %. */
  lemma SafeBandTick(cfg: Config, rs: seq<SensorReading>)
    requires cfg.safeTemp <= MaxTemp(rs) < cfg.critTemp
    ensures Tick(cfg, rs) == Continue([Speed(100)])
  {
  }

  /** When every sensor fails the aggregated temperature is 0, the tick commands
      FAN_MIN, and the loop keeps running. */
  lemma AllFailedTick(cfg: Config, rs: seq<SensorReading>)
    requires 0 < cfg.safeTemp && 0 < cfg.critTemp
    requires forall i | 0 <= i < |rs| :: rs[i].value.None?
    ensures Tick(cfg, rs) == Continue([Speed(cfg.fanMin)])
  {
    NoDataIsFanMin(cfg);
  }

  /** With a valid configuration every speed command is 100 or lies in
      [FAN_MIN, FAN_MAX], so its byte fits the controller's 0..255 range. */
  lemma {:induction false} MainSpeedsInRange(cfg: Config, ticks: seq<seq<SensorReading>>, interrupted: bool)
    requires Valid(cfg)
    ensures forall c | c in Main(cfg, ticks, interrupted).trace ::
              c.Speed? ==> (c.percent == 100 || cfg.fanMin <= c.percent <= cfg.fanMax)
                           && 0 <= PercentToByte(c.percent) <= 255
  {
    var tick := rs => Tick(cfg, rs);
    DriveSpeeds(cfg, ticks, interrupted);
    assert Main(cfg, ticks, interrupted).trace == [Manual] + Drive(tick, ticks, interrupted).trace;
  }

  lemma {:induction false} DriveSpeeds(cfg: Config, ticks: seq<seq<SensorReading>>, interrupted: bool)
    requires Valid(cfg)
    ensures forall c | c in Drive(rs => Tick(cfg, rs), ticks, interrupted).trace ::
              c.Speed? ==> c.percent == 100 || cfg.fanMin <= c.percent <= cfg.fanMax
    decreases |ticks|
  {
    if |ticks| > 0 {
      DriveSpeeds(cfg, ticks[1..], interrupted);
      var t := MaxTemp(ticks[0]);
      if t < cfg.critTemp {
        DutyBands(cfg, t);
      }
    }
  }

  /** The first critical tick ends the run: `Auto` is its last command, and the
      ticks and interrupt after it change nothing. */
  lemma {:induction false} CriticalEndsRun(cfg: Config, ticks: seq<seq<SensorReading>>, k: nat, interrupted: bool)
    requires cfg.safeTemp > 0
    requires k < |ticks|
    requires forall i | 0 <= i < k :: MaxTemp(ticks[i]) < cfg.critTemp
    requires MaxTemp(ticks[k]) >= cfg.critTemp
    ensures Main(cfg, ticks, interrupted).status == StoppedCritical
    ensures Main(cfg, ticks, interrupted) == Main(cfg, ticks[..k + 1], false)
    ensures var tr := Main(cfg, ticks, interrupted).trace; tr[|tr| - 1] == Auto
  {
    var tick := rs => Tick(cfg, rs);
    forall i | 0 <= i < k ensures tick(ticks[i]).Continue? {
      CriticalTick(cfg, ticks[i]);
    }
    CriticalTick(cfg, ticks[k]);
    DriveStopsAt(tick, ticks, k, interrupted);
    var pre := ticks[..k + 1];
    assert pre[..k] == ticks[..k] && pre[k] == ticks[k];
    DriveStopsAt(tick, pre, k, false);
  }

  /** An interrupt while no tick has reached CRIT_TEMP: after the start-up
      `Manual`, each tick sends the speed the curve chooses for its hottest
      reading, and the handler's `Auto` comes last. */
  lemma {:induction false} InterruptRevertsToAuto(cfg: Config, ticks: seq<seq<SensorReading>>)
    requires cfg.safeTemp > 0
    requires forall i | 0 <= i < |ticks| :: MaxTemp(ticks[i]) < cfg.critTemp
    ensures Main(cfg, ticks, true) == Outcome([Manual] + CurveSpeeds(cfg, Hottest(ticks)) + [Auto], Interrupted)
  {
    var tick := rs => Tick(cfg, rs);
    forall i | 0 <= i < |ticks| ensures tick(ticks[i]).Continue? {
      CriticalTick(cfg, ticks[i]);
    }
    InterruptEndsInAuto(tick, ticks);
    EmittedCurveSpeeds(cfg, ticks);
  }

  /** The aggregated temperature of each tick. */
  function Hottest(ticks: seq<seq<SensorReading>>): seq<int>
  {
    seq(|ticks|, i requires 0 <= i < |ticks| => MaxTemp(ticks[i]))
  }

  /** The speed the curve chooses for each temperature below CRIT_TEMP. */
  function CurveSpeeds(cfg: Config, ts: seq<int>): seq<Command>
    requires cfg.safeTemp > 0
    requires forall k | 0 <= k < |ts| :: ts[k] < cfg.critTemp
  {
    seq(|ts|, k requires 0 <= k < |ts| => Speed(Decide(cfg, ts[k]).percent))
  }

  lemma CurveSpeedsCons(cfg: Config, ts: seq<int>)
    requires cfg.safeTemp > 0 && |ts| > 0
    requires forall k | 0 <= k < |ts| :: ts[k] < cfg.critTemp
    ensures CurveSpeeds(cfg, ts) == [Speed(Decide(cfg, ts[0]).percent)] + CurveSpeeds(cfg, ts[1..])
  {
    var all, rest := CurveSpeeds(cfg, ts), CurveSpeeds(cfg, ts[1..]);
    assert forall k | 0 <= k < |rest| :: rest[k] == all[k + 1];
  }

  /** Ticks below CRIT_TEMP send one curve speed each, in order. */
  lemma {:induction false} EmittedCurveSpeeds(cfg: Config, ticks: seq<seq<SensorReading>>)
    requires cfg.safeTemp > 0
    requires forall i | 0 <= i < |ticks| :: MaxTemp(ticks[i]) < cfg.critTemp
    ensures Emitted(rs => Tick(cfg, rs), ticks) == CurveSpeeds(cfg, Hottest(ticks))
    decreases |ticks|
  {
    if |ticks| > 0 {
      var tick := rs => Tick(cfg, rs);
      var hs := Hottest(ticks);
      assert hs[1..] == Hottest(ticks[1..]) by {
        assert forall i | 0 <= i < |ticks| - 1 :: ticks[1..][i] == ticks[i + 1];
      }
      EmittedCurveSpeeds(cfg, ticks[1..]);
      assert Emitted(tick, ticks) == tick(ticks[0]).cmds + CurveSpeeds(cfg, hs[1..]);
      CriticalTick(cfg, ticks[0]);
      CurveSpeedsCons(cfg, hs);
    }
  }

  /** Scenario with the default thresholds 20/90/65/75: a hottest sensor at 40
      degrees gives 20 + 40 * 70 / 65 = 63 %. */
  lemma {:induction false} ScenarioRamp()
    ensures Main(Config(20, 90, 65, 75), [[SensorReading("cpu1", Some(40))]], false)
            == Outcome([Manual, Speed(63)], Running)
  {
    var cfg, rs := Config(20, 90, 65, 75), [SensorReading("cpu1", Some(40))];
    assert MaxTemp(rs) == 40;
    RampReference(cfg, 40);
    assert Tick(cfg, rs) == Continue([Speed(63)]);
  }

  /** Scenario: a hottest sensor at 70 degrees, inside the safe band, gives 100 %. */
  lemma {:induction false} ScenarioSafe()
    ensures Main(Config(20, 90, 65, 75), [[SensorReading("cpu1", Some(70))]], false)
            == Outcome([Manual, Speed(100)], Running)
  {
    var cfg, rs := Config(20, 90, 65, 75), [SensorReading("cpu1", Some(70))];
    assert MaxTemp(rs) == 70;
    assert Tick(cfg, rs) == Continue([Speed(100)]);
  }

  /** Scenario: a hottest sensor at 80 degrees hands back to automatic control
      right after the start-up `Manual`; the next tick and the interrupt never
      happen. */
  lemma {:induction false} ScenarioCritical()
    ensures Main(Config(20, 90, 65, 75), [[SensorReading("cpu1", Some(80))], [SensorReading("cpu1", Some(40))]], true)
            == Outcome([Manual, Auto], StoppedCritical)
  {
    var cfg, rs := Config(20, 90, 65, 75), [SensorReading("cpu1", Some(80))];
    assert MaxTemp(rs) == 80;
    assert Tick(cfg, rs) == Stop([Auto], StoppedCritical);
  }
}
